=== FILE: README.md ===
# axe-playwright-report in Dafny

A Dafny model of the decision logic of axe-playwright-report. This tool
records axe-core accessibility scans from Playwright tests and builds an
HTML report from them. The model has three parts:

- **Capture** (`axeDecorator.ts`).
  - The `axeScan` decorator fingerprints the scanned URL: `normalizeUrl` masks volatile path segments and rewrites the query as sorted `key=*` entries.
  - `formatUrl` derives the `path` group key from the fingerprint.
  - `loadEnvConfig` reads its switches from `.env.a11y`.
  - The decorator decides whether a record is written, what fields it adds, and how the record and its screenshots are named.
- **Report building** (`buildReport.js`).
  - `deduplicate` reads every record back and backfills a missing `id` from the file name. It picks the losing records with the `exact` or `best` strategy, then deletes every file of the pages directory whose name starts with a loser's id.
  - `normalizePath` is the fallback page file name.
  - `escapeHTML`, `getAxeVersion` and the dashboard's counting reductions: summary cards, page table, impact chart, disability tally, and the filter values of a page.
- **Report page script** (`main.js`).
  - Pagination arithmetic: the page-button window, the range text, the visible card and row windows, and the prev/next buttons.
  - `applyFilters`: the show/hide predicate for issue cards and the visible count per tab.

Records are immutable datatypes:

- JSON fields that may be missing are `Option`s.
- The `impact`, `url` and `path` fields and the disability names distinguish missing, `null` and a string. The impact chart compares `impact` with `===`; the `exact` key serialises `url`, which writes `null` but leaves out an undefined url; the `best` groups use `path` as a `Map` key, which keeps `null` and `undefined` apart; the disability tally uses a name as an object key, which turns `null` into `"null"` and a missing name into `"undefined"`.
- A run that would throw a `TypeError` in the source is a `Failure` or a `None` result. Examples are a `best` comparison that reads a missing section, and a disability tally over a report without `passes`.
- The file system is a list of entry names plus parsed records. Deleting returns the entries that are left.
- URL parsing is not modelled. The operations take the parsed pathname and the ordered list of search-parameter keys.

Two facts about the code shape the model:

- The summary cards and the impact chart count issues (rule results), not the nodes inside them.
- Path segments are classified only as `:id`, `:uuid` and `:hash` (`id`, `uuid`, `hash` in page names), tested in that order.

## Model

| member | source | states |
|---|---|---|
| Escape.EscapeHtml | buildReport.js:20-21 | `null` and `undefined` escape to the empty string |
| Escape.EscapedHasNoMarkup | buildReport.js:20-27 | the escaped text contains no raw `<`, `>`, `"` or `'` |
| Escape.PlainTextUnchanged | buildReport.js:20-27 | text without any of `& < > " '` is returned unchanged |
| Escape.EscapePassesIsOnePass | buildReport.js:22-26 | the five sequential replacements equal a single per-character escape: `&` is replaced first, so entities produced by later passes are never escaped again |
| Escape.EscapePassesChar | buildReport.js:22-26 | each character escapes to its own entity or to itself |
| Escape.EscapeRoundTrip | buildReport.js:20-27 | unescaping the escaped text gives the original text back, so escaping loses nothing |
| Escape.AxeVersion | buildReport.js:15-18 | the data-file version is a prefix of the axe-core version |
| Escape.AxeVersionParts | buildReport.js:15-18 | `major.minor.patch` gives `major.minor`; versions with one or two parts are kept whole |
| PageNames.FileId | buildReport.js:953 | the file id followed by `.json` is the file name |
| PageNames.FileIdInjective | buildReport.js:953 | distinct `.json` files have distinct ids |
| PageNames.Backfill | buildReport.js:954-957 | a falsy `id` becomes the file id; a truthy one and every other field are left as they are |
| PageNames.BackfillGivesId | buildReport.js:953-957 | every record read back has an id, truthy unless the file is called exactly `.json` |
| PageNames.PageSegment | buildReport.js:1064-1069 | an all-digit segment becomes `id`; otherwise a UUID-shaped one `uuid`; otherwise a hash-shaped one `hash`; otherwise the first occurrence of `.html` is cut out when the segment ends in `.html`; any other segment is kept |
| PageNames.HtmlSuffixRemoved | buildReport.js:1068 | a segment ending in `.html` whose only dot is the suffix loses exactly the suffix |
| PageNames.NonEmptySegments | buildReport.js:1061-1063 | the kept segments are non-empty and contain no `/` |
| PageNames.NormalizePath | buildReport.js:1058-1074 | the page name is never empty, has no `/`, and is `root` for a path without segments |
| PageNames.SlashesAreRoot | buildReport.js:1061-1073 | a pathname made only of slashes names the `root` page |
| PageNames.NormalizePathSegments | buildReport.js:1061-1070 | split on `_`, the page name gives back the rewritten non-empty segments in order |
| PageNames.BackfilledNamesUseFileId | buildReport.js:920-921 | after the backfill, a page without an id of its own is named by its file id |
| Segments.ForeignCharDefeatsShapes | axeDecorator.ts:196-198 | a segment holding a character outside `[0-9a-fA-F-]` matches none of the three patterns |
| Fingerprint.MaskSegment | axeDecorator.ts:195-200 | an all-digit segment becomes `:id`; otherwise a UUID-shaped one `:uuid`; otherwise a hash-shaped one `:hash`; a segment is kept exactly when it matches none of the patterns |
| Fingerprint.MaskSegmentIdempotent | axeDecorator.ts:196-199 | the masks match none of the patterns, so masking twice is masking once |
| Fingerprint.NormalizePathnameSegments | axeDecorator.ts:193-201 | splitting the normalized path gives one masked segment per original segment, including empty leading and trailing ones |
| Fingerprint.NormalizePathnameIdempotent | axeDecorator.ts:193-201 | normalizing a normalized path changes nothing |
| Fingerprint.QueryString | axeDecorator.ts:204-208 | the query part is empty exactly when there are no search keys, and otherwise starts with `?` |
| Fingerprint.QueryStringEntries | axeDecorator.ts:204-208 | the query holds one `key=*` per search entry, duplicates kept, in sorted order |
| Fingerprint.NormalizeUrlNonEmpty | axeDecorator.ts:189-210 | a non-empty pathname gives a non-empty fingerprint, so written records have a truthy `newUrl` |
| Fingerprint.NumericSegmentsCollapse | axeDecorator.ts:193-210 | paths that differ only in an all-digit segment get the same fingerprint, with `:id` in its place |
| Fingerprint.DottedSegmentKept | axeDecorator.ts:195-199 | a segment with a dot, such as a file name, is never masked |
| Fingerprint.DashedAlnums | axeDecorator.ts:86 | replacing every non-alphanumeric character by `-` keeps the letters and digits, in order |
| Fingerprint.StripDashes | axeDecorator.ts:86 | the result is a contiguous piece of the input cut only at runs of dashes at the two ends, so it neither starts nor ends with `-`, inner dashes stay, and every letter and digit is kept in order |
| Fingerprint.DashedPath | axeDecorator.ts:86 | the dashed path is the dashed input with only its outer dashes cut; it holds only letters, digits and `-`, keeps the input's letters and digits in order, and is empty exactly when the input has none |
| Fingerprint.FormatUrl | axeDecorator.ts:84-88 | the key is `/` followed by the dashed relative path with only its outer dashes cut; it is `/` exactly when the relative path has no letter or digit |
| Fingerprint.FormatUrlNoBase | axeDecorator.ts:85-87 | with no base URL configured the key is `/` followed by the dashed input |
| Fingerprint.DashedPathIgnoresPunctuation | axeDecorator.ts:86 | inputs that agree on their letters and digits, position by position, get the same dashed path |
| Fingerprint.FormatUrlMergesPages | axeDecorator.ts:84-88 | `/a/b` and `/a-b` are distinct inputs with the same key |
| EnvConfig.StripQuotes | axeDecorator.ts:144 | at most one quote is removed from each end, and an unquoted value is unchanged |
| EnvConfig.StripQuotesWrapped | axeDecorator.ts:144 | a value between two quotes, of either kind, comes back exactly, whatever it holds |
| EnvConfig.StripQuotesLeading | axeDecorator.ts:144 | a lone leading quote is removed; a single quote character becomes the empty string |
| EnvConfig.StripQuotesTrailing | axeDecorator.ts:144 | a lone trailing quote is removed |
| EnvConfig.ParseLineSkips | axeDecorator.ts:138-142 | a line sets nothing exactly when it is blank, starts with `#`, has no `=`, or has an empty key |
| EnvConfig.ParseLineSets | axeDecorator.ts:141-144 | a setting's key is the untrimmed text before the first `=`; its value is the rest, trimmed and unquoted |
| EnvConfig.AssignAllDefined | axeDecorator.ts:137-145 | after applying settings in order, a key is defined exactly when some setting assigns it |
| EnvConfig.AssignAllLast | axeDecorator.ts:137-145 | the value of a key is that of the last setting that assigns it |
| EnvConfig.DefinedIffSet | axeDecorator.ts:137-145 | a variable is defined exactly when some line of the file sets it |
| EnvConfig.LaterLinesOverride | axeDecorator.ts:137-145 | a variable's value comes from the last line that sets it |
| EnvConfig.IsOnSpellings | axeDecorator.ts:148-150 | a switch is on exactly for `on`, `On`, `oN` and `ON` |
| EnvConfig.SplitTags | axeDecorator.ts:151 | the tags are non-empty, trimmed, and hold no comma |
| EnvConfig.SplitTagsJoin | axeDecorator.ts:151 | a comma-joined list of clean tags reads back as the same list |
| EnvConfig.LoadEnvConfig | axeDecorator.ts:124-153 | a missing file gives the defaults; an unset or empty variable keeps its default; the switches are on exactly when upper-cased to `ON`; the output directory is `OUTPUT_DIR` plus `/pages`; a set `TAGS` gives its trimmed non-empty comma-separated pieces |
| EnvConfig.NoSettingsGiveDefaults | axeDecorator.ts:132-152 | a file that sets no variable gives the same configuration as a missing one |
| EnvConfig.EmptyFileGivesDefaults | axeDecorator.ts:132-152 | an empty file behaves like a missing one |
| Capture.LastChars | axeDecorator.ts:50 | `slice(-k)` keeps the last `k` characters, or all of a shorter string |
| Capture.GenerateId | axeDecorator.ts:50 | the id is the UUID followed by one to four decimal digits, exactly four once the clock reads 1000 or more, and they denote the clock reading modulo 10000 |
| Capture.LastFourDigits | axeDecorator.ts:50 | the last four characters of a decimal number denote it modulo 10000 |
| Capture.Persisted | axeDecorator.ts:50-63 | a written record carries `id`, the fingerprint as `newUrl`, `pagePath` and the `path` key, and all four sections |
| Capture.ScreenshotNameInjective | axeDecorator.ts:102 | two screenshot names of one record and section are equal only for equal numbers |
| Capture.ScreenshotsDistinct | axeDecorator.ts:102 | no two screenshots of one section share a name |
| Capture.Capture | axeDecorator.ts:38-75 | a record is written exactly when scanning is on, a page is found, and some section other than inapplicable is non-empty; screenshots follow only when switched on and there is something to highlight |
| Capture.PersistedReadsBack | axeDecorator.ts:50-69 | a written record takes part in `best` merging, its file id is its id, and the backfill leaves it unchanged |
| Capture.ScreenshotStartsWithId | axeDecorator.ts:102 | a screenshot's name starts with the record id |
| Capture.WrittenFilesStartWithId | axeDecorator.ts:69-73 | every file a scan writes starts with the record id |
| Capture.WrittenFilesDeletedWithId | buildReport.js:1032-1042 | when a record loses, its JSON file and all its screenshots are deleted |
| Capture.SameLengthIdsDoNotCollide | axeDecorator.ts:50 | two different ids of the same length are never prefixes of each other's file names |
| Deletion.RemovePrefixed | buildReport.js:991-993 | deleting one id keeps exactly the entries it is not a prefix of |
| Deletion.Survivors | buildReport.js:990-1000 | the reference filter keeps exactly the entries that no losing id prefixes |
| Deletion.DeleteAllIsSurvivors | buildReport.js:1032-1042 | deleting loser by loser, listing the directory again each time, leaves the same entries as the one-pass filter |
| Deletion.SurvivorsOfNone | buildReport.js:968-970 | with no losers the directory is left as it is |
| Deletion.ArtifactsRemoved | buildReport.js:1033-1035 | every entry whose name starts with a losing id is removed |
| Deletion.LoserPrefixReachesOthers | buildReport.js:1033-1035 | the prefix test also deletes another record whose id extends a loser's id |
| Deletion.EmptyIdRemovesEverything | buildReport.js:991-993 | an empty losing id empties the directory |
| ExactMerge.IssuesTargetsAppend | buildReport.js:979-980 | the flattened targets of a section are its issues' targets laid end to end |
| ExactMerge.NodelessIssuesAddNothing | buildReport.js:979-980 | issues without nodes contribute no targets to the key |
| ExactMerge.Fold | buildReport.js:975-989 | losers are pushed in increasing position order, each at most once |
| ExactMerge.FoldSpec | buildReport.js:975-989 | `seen` is exactly the keys met so far, and a record loses exactly when an earlier record has its key |
| ExactMerge.SurvivorsDistinct | buildReport.js:984-988 | the kept records have pairwise distinct keys |
| ExactMerge.FirstOfKey | buildReport.js:984-988 | every record's key is held by a kept record at or before it: the first record of that key |
| BestMerge.BetterIrreflexive | buildReport.js:1016-1023 | no record beats itself, so a lone group member is never replaced |
| BestMerge.BetterTransitive | buildReport.js:1016-1023 | beating is transitive |
| BestMerge.BetterTotalOnValidDates | buildReport.js:1018-1023 | of two records with valid dates and different scores, one beats the other |
| BestMerge.Compare | buildReport.js:1016-1024 | the comparison is the lexicographic order (violations, incomplete, later timestamp); it fails exactly where it reads a missing section |
| BestMerge.Step | buildReport.js:1008-1029 | one turn of the loop keeps every stored best at an earlier position |
| BestMerge.StepIneligible | buildReport.js:1012-1014 | a record without `newUrl` leaves the state unchanged: it is never compared and never pushed |
| BestMerge.FoldInv | buildReport.js:1008-1030 | the loop keeps its invariant. Each group's best is an eligible member, losers are distinct non-best members, every eligible record is a best or a loser, no member beats its best, and no earlier member ties with it |
| BestMerge.WellFormedSucceeds | buildReport.js:1018-1022 | when every eligible record has both counted sections, the loop never fails |
| BestMerge.BestMergeOutcome | buildReport.js:1004-1030 | each eligible record's group has a best; the record survives exactly when it is that best; no id is pushed twice; only eligible records lose |
| BestMerge.SurvivorIsGreatest | buildReport.js:1016-1029 | no group member beats the survivor, and on a full tie the earliest member survives |
| BestMerge.DistinctPathsNoLosers | buildReport.js:1008-1030 | records that take part with pairwise distinct paths produce no losers |
| BestMerge.SurvivorsInDistinctGroups | buildReport.js:1025-1028 | two survivors never share a `path` |
| BestMerge.KeptPositions | buildReport.js:1004-1030 | the positions whose ids the merge does not push to `toDelete` are exactly those of the records that take no part and of the survivors, strictly increasing |
| BestMerge.Kept | buildReport.js:1004-1030 | the records whose ids are not pushed to `toDelete` are every record that takes no part and every survivor, nothing else, in the original order |
| BestMerge.KeptDistinct | buildReport.js:1004-1030 | the records not pushed that take part have pairwise distinct paths |
| BestMerge.MergeIdempotent | buildReport.js:1004-1030 | merging the records a merge does not push pushes nothing |
| Dedup.IdsDistinct | buildReport.js:953-959 | distinct positions of distinctly named files give distinct ids |
| Dedup.Deduplicate | buildReport.js:948-1044 | the directory left is exactly the entries no pushed id prefixes; `none` and unknown strategies delete nothing; `exact` always completes; `best` fails only where its comparison crashes; only ids of listed files are pushed |
| Dedup.BestSparesNonParticipants | buildReport.js:1012-1014 | under `best` the id of a record without `newUrl` is never pushed |
| Dedup.PushedIffLoser | buildReport.js:959 | with distinctly named files, an entry's id is pushed exactly when it loses, and then its JSON file is deleted |
| Dedup.ExactDeletesRepeats | buildReport.js:972-1001 | under `exact` a record's id is pushed exactly when an earlier record has the same url and target lists, and then its file is deleted |
| Dedup.BestDeletesNonSurvivors | buildReport.js:1004-1042 | under `best` a record that takes part has its id pushed exactly when it is not its group's survivor, and then its file is deleted |
| Dedup.KeptFilesRemain | buildReport.js:1032-1042 | when all `.json` names have the same length, every entry starting with the id of a record that is not pushed stays in the directory |
| Dedup.BestKeptFilesRemain | buildReport.js:1004-1042 | under `best`, with names of one length, the files of every record that takes no part and of every survivor stay in the directory |
| Dedup.NoIdPushedTwice | buildReport.js:975-1030 | under `exact` and `best` no id is pushed twice |
| Sorting.Sort | buildReport.js:371-373 | `sort()` returns an ordered permutation under character order |
| Sorting.SortUnique | buildReport.js:371-373 | a set spread and sorted holds exactly the values of the input, strictly increasing |
| Counts.SummaryMatchesTable | buildReport.js:732-738 | the summary total equals the sum of the table's violations, incomplete and passes cells |
| Counts.SummaryAppend | buildReport.js:678-688 | the summaries of two batches of reports add up |
| Counts.IssuesPartition | buildReport.js:781-786 | every issue falls in exactly one of the four impact slices or in none of them |
| Counts.ImpactChartPartition | buildReport.js:780-794 | the four impact slices plus the uncharted issues (such as `minor`) make up the summary total |
| Counts.FindRuleFrom | buildReport.js:840 | `find` returns the first rule for the id, or none when no rule matches |
| Counts.DisabilityNames | buildReport.js:836-865 | the tally input exists exactly when every report has all three sections |
| Counts.PropertyKey | buildReport.js:870-873 | a name's tally key is the name itself; a missing name shares the key `"undefined"` and a `null` name the key `"null"` with the string of that spelling, and only with it |
| Counts.Tally | buildReport.js:870-873 | the tally has a key for exactly the names that occur, and each count is that name's number of occurrences |
| Counts.ImpactValues | buildReport.js:347-350 | the impact values are exactly the lower-cased truthy impacts |
| Counts.TagValues | buildReport.js:352-355 | the tag values are exactly the lower-cased tags of the issues |
| Counts.Named | buildReport.js:362-366 | exactly the non-empty string names are collected; missing and `null` names are skipped |
| Counts.NamedDisabilities | buildReport.js:357-368 | the disability values are exactly the non-empty names of the disabilities the issues' rules affect |
| Counts.Filters | buildReport.js:340-373 | filter values exist exactly when the three sections do, and each list is strictly sorted and holds exactly the collected values |
| Counts.ImpactValuesLowerCase | buildReport.js:349 | every offered impact is already lower case |
| Pagination.TotalPages | main.js:301 | the page count is the ceiling of items over page size |
| Pagination.PageWindow | main.js:342-348 | the window lies in `[1, totalPages]`, spans at most five pages (exactly five when there are that many), and contains the current page when that page exists |
| Pagination.Buttons | main.js:351-364 | five buttons when there are five pages or more, otherwise one per page; consecutive page numbers including the current page |
| Pagination.FewPagesAllShown | main.js:342-351 | with fewer than five pages every page has a button |
| Pagination.RangeText | main.js:329-330 | the range start never exceeds its end on a real page |
| Pagination.PageOf | main.js:307-315 | every card index is visible on its own page |
| Pagination.PagesPartitionIndices | main.js:307-315 | a card is visible on exactly one page, and that page exists |
| Pagination.RangeTextMatchesWindow | main.js:329-330 | the range text names exactly the visible cards (1-based) |
| Pagination.TableRuleIsIssueRule | main.js:157-161 | the table's row window is the card window with ten rows per page |
| Pagination.WindowWidth | main.js:307-315 | fewer than `N` indices apart: at most `N` cards are visible at once |
| Pagination.PrevNextBounds | main.js:374-394 | the clicks keep the page in `[1, totalPages]`, and each button is disabled exactly when its click would change nothing |
| CardFilter.ImpactClass | buildReport.js:547 | the badge has one of four classes, and it is the yellow one exactly for `moderate` |
| CardFilter.BadgeText | buildReport.js:547 | the badge shows the impact when it is truthy, and `none` exactly otherwise |
| CardFilter.LabelText | buildReport.js:560-562 | a disability label's text is the name as written, because escaping loses nothing; a missing or `null` name gives an empty label |
| CardFilter.DisabilityTexts | buildReport.js:559-562 | one label per disability of the rule, in order |
| CardFilter.CardOf | buildReport.js:520-602 | a card exists exactly when the issue has both `tags` and `nodes` (the template reads `issue.nodes.length`); it carries the tab, the issue's tags, the badge class and text of its impact, and one label per disability of its rule, in order |
| CardFilter.OwnTagSelectsCard | main.js:239-248 | selecting one of an issue's own tags shows its card |
| CardFilter.OwnDisabilitySelectsCard | main.js:252-261 | selecting the name of a disability the issue's rule affects shows its card |
| CardFilter.NoFiltersShowAll | main.js:220-264 | with no filter selected every card is shown |
| CardFilter.MoreValuesShowMore | main.js:223-263 | selecting one more value in an active filter never hides a card |
| CardFilter.WiderSelection | main.js:229-231 | a match against some selected values remains a match when more values are selected |
| CardFilter.TagMatchIsSubstring | main.js:239-248 | tags match by substring: a selected tag also selects every tag that starts with it |
| CardFilter.ModerateNeverMatches | main.js:224 | as written, a moderate card is hidden whenever any impact is selected, `moderate` included |
| CardFilter.SelectedImpactShown | main.js:223-235 | with every badge class queried, selecting an issue's impact as offered shows its card |
| CardFilter.CountShown | main.js:268-271 | a tab's count never exceeds the number of cards |
| CardFilter.AnyMatch | main.js:229-231 | the nested `some` holds exactly when some selected value is a case-insensitive substring of some text |
| CardFilter.ShowCard | main.js:220-264 | the handler's `showCard` is exactly the conjunction of the three active filters |
| CardFilter.ApplyFilters | main.js:195-272 | cards inside a tab are shown exactly when they pass the filters; cards outside are untouched; each tab's count is the number of its shown cards |

## Left out

- File-system I/O (reading, writing, existence checks, directory creation and unlinking) is not modelled. The directory is a list of names, and deletion returns what is left.
- JSON parsing and `JSON.stringify` are not modelled. The `exact` key is compared as a tuple of url and target lists.
- URL parsing (`new URL`, percent-decoding of search parameters) is not modelled. The operations receive the parsed pathname and the ordered list of search keys.
- Playwright, axe-core, element highlighting and the screenshot capture are external browser code. Only the names of the screenshots are modelled.
- `randomUUID` and the clock become parameters: the UUID string and the millisecond count.
- `formatDate` and the timestamps are left out because they depend on the local time zone. A timestamp is an integer, or `None` for an invalid date.
- The percentages of the disability chart are floating point and are left out.
- The HTML templates, the dashboard layout, Chart.js, the Select2 widgets, the clipboard, the tabs, the "no results" messages, and the count elements updated at main.js:274-294 are presentation only.
- The `.env.a11y` loading of `OUTPUT_DIR` and `MERGE_STRATEGY` by dotenv in buildReport.js is not modelled. The strategy is a parameter.
- `ITEMS_PER_PAGE` and the per-tab `currentPage` are not declared in main.js. They are the parameters `perPage` (at least 1) and `c`.
- Reading the axe-core version from `testEngine` and loading the rule data file are I/O. Only the version string is modelled.
- dis.scrape.py (network scraping), cli.js, mergeReports.js and axeBuildReport.ts are thin wrappers outside this model.
- The quality gate that fails a run on violations is not modelled: there is no such code in buildReport.js, axeDecorator.ts or main.js.
- Nested `target` arrays (shadow DOM and iframe selectors) are modelled as plain strings.
- Sorting.Sort: strings are sequences of Unicode scalar values, not of UTF-16 code units as in JavaScript. For a character above U+FFFF, JavaScript compares its surrogate pair, so the sort order and string lengths can differ from the model's.
- `toLowerCase` and `toUpperCase` are modelled for ASCII letters only. Other characters are left unchanged.
- Non-string values where the source calls `String(...)` are not modelled. Only strings, `null` and `undefined` are inputs.
- BestMerge.Kept: the records it lists are those whose ids are not pushed to `toDelete`. The deletion loop (buildReport.js:1032-1042) also removes every file a pushed id is a prefix of, so a kept record's files can go too when a loser's id prefixes its name (`Deletion.LoserPrefixReachesOthers`). `Dedup.KeptFilesRemain` and `Dedup.BestKeptFilesRemain` prove they stay when all file names have the same length, as the ids the decorator generates do (`Capture.SameLengthIdsDoNotCollide`).
- Tags and disability names are taken as label text without HTML parsing. Tags are inserted unescaped, so a tag containing markup would render differently.
- CardFilter.BadgeText: the impact is inserted into the badge unescaped (buildReport.js:547) and the filter reads the badge's `textContent` (main.js:228). An impact holding markup or an entity, such as `a&amp;b`, shows as `a&b` in the page; the model takes the raw impact as the badge text.
- Counts.Tally: object keys such as `__proto__`, which JavaScript objects treat specially, are not modelled. Every name counts as an ordinary key.
- CardFilter.ApplyFilters: a card in a tab other than the four known ones turns its counter into `NaN` in the source. The model does not count it.
- `paginateIssues` selects cards `:not(.filtered)`, but `applyFilters` hides cards with `display: none` and never sets that class. Pagination therefore counts hidden cards too. The model takes the list of cards it is given.

## Findings

| source | as written | input that shows it | evidently intended | confidence | as-written member | corrected member |
|---|---|---|---|---|---|---|
| main.js:224 | the impact filter looks for a badge with class `bg-red-600`, `bg-orange-500`, `bg-blue-600` or `bg-green-500`; moderate badges carry `bg-yellow-500` (buildReport.js:547), and no badge carries `bg-blue-600` | an issue with impact `moderate` and the impact filter set to `["moderate"]`, a value generateFilters offers | the query lists every badge class, so a card is shown when its impact is selected | not executed | CardFilter.ModerateNeverMatches | CardFilter.SelectedImpactShown |

=== FILE: bestmerge.dfy ===
/** The `best` strategy of `deduplicate` in buildReport.js. Records that
    have a `newUrl` are grouped by `path`; each group keeps the record that
    is greatest by (violations count, incomplete count, timestamp) and every
    other member of the group loses. The fold keeps, per group, the
    position of the current best record and the positions that lost. */
module BestMerge {
  import opened Wrappers
  import opened Records

  /** Only records with a truthy `newUrl` take part. */
  predicate Eligible(r: Record) {
    Truthy(r.newUrl)
  }

  /** What the comparison looks at. `time` is `None` for an invalid date. */
  datatype Score = Score(violations: nat, incomplete: nat, time: Option<int>)

  function ScoreOf(r: Record): Score {
    Score(SectionLength(r.violations), SectionLength(r.incomplete), r.timestamp)
  }

  /** `a > b` on two dates: false as soon as either is invalid. */
  predicate Later(a: Option<int>, b: Option<int>) {
    a.Some? && b.Some? && a.value > b.value
  }

  /** The strict order a challenger must beat the incumbent in. */
  predicate Better(a: Score, b: Score) {
    || a.violations > b.violations
    || (a.violations == b.violations && a.incomplete > b.incomplete)
    || (a.violations == b.violations && a.incomplete == b.incomplete && Later(a.time, b.time))
  }

  lemma BetterIrreflexive(a: Score)
    ensures !Better(a, a)
  {
  }

  lemma BetterTransitive(a: Score, b: Score, c: Score)
    requires Better(a, b) && Better(b, c)
    ensures Better(a, c)
  {
  }

  /** Only a tie on all three keys lets the incumbent stay without being
      strictly better: two valid dates always compare. */
  lemma BetterTotalOnValidDates(a: Score, b: Score)
    requires a.time.Some? && b.time.Some? && a != b
    ensures Better(a, b) || Better(b, a)
  {
  }

  /** The guarded comparison of a challenger `ch` against the incumbent
      `inc`, with the crashes of `.length` on a missing section: the
      violations of both are always read, their incomplete sections only
      when the violation counts are equal. */
  function Compare(ch: Record, inc: Record): (res: Result<bool, string>)
    ensures res.Failure? <==>
      || ch.violations.None? || inc.violations.None?
      || (|ch.violations.value| == |inc.violations.value|
          && (ch.incomplete.None? || inc.incomplete.None?))
    ensures res.Success? ==> res.value == Better(ScoreOf(ch), ScoreOf(inc))
  {
    if ch.violations.None? || inc.violations.None? then Failure("violations is undefined")
    else if |ch.violations.value| > |inc.violations.value| then Success(true)
    else if |ch.violations.value| < |inc.violations.value| then Success(false)
    else if ch.incomplete.None? || inc.incomplete.None? then Failure("incomplete is undefined")
    else if |ch.incomplete.value| > |inc.incomplete.value| then Success(true)
    else if |ch.incomplete.value| < |inc.incomplete.value| then Success(false)
    else Success(Later(ch.timestamp, inc.timestamp))
  }

  /** `best` maps a group key to the position of its current best record;
      `losers` lists the positions pushed to `toDelete`, in push order. */
  datatype BestState = BestState(best: map<JsonString, nat>, losers: seq<nat>)

  predicate Bounded(st: BestState, n: nat) {
    forall k :: k in st.best ==> st.best[k] < n
  }

  /** One turn of the loop, for the record at position `j`. */
  function Step(rs: seq<Record>, st: BestState, j: nat): (res: Result<BestState, string>)
    requires j < |rs| && Bounded(st, j)
    ensures res.Success? ==> Bounded(res.value, j + 1)
  {
    var r := rs[j];
    if !Eligible(r) then Success(st)
    else if r.path !in st.best then Success(st.(best := st.best[r.path := j]))
    else
      var b := st.best[r.path];
      match Compare(r, rs[b])
      case Failure(e) => Failure(e)
      case Success(true) => Success(BestState(st.best[r.path := j], st.losers + [b]))
      case Success(false) => Success(st.(losers := st.losers + [j]))
  }

  /** The loop over the first `n` records. */
  function Fold(rs: seq<Record>, n: nat): (res: Result<BestState, string>)
    requires n <= |rs|
    ensures res.Success? ==> Bounded(res.value, n)
  {
    if n == 0 then Success(BestState(map[], []))
    else
      match Fold(rs, n - 1)
      case Failure(e) => Failure(e)
      case Success(st) => Step(rs, st, n - 1)
  }

  /** Every stored best is an eligible record of its own group. */
  predicate BestOk(rs: seq<Record>, n: nat, st: BestState)
    requires n <= |rs|
  {
    forall k :: k in st.best ==> st.best[k] < n && Eligible(rs[st.best[k]]) && rs[st.best[k]].path == k
  }

  /** Losers are distinct eligible records that are not their group's best. */
  predicate LosersOk(rs: seq<Record>, n: nat, st: BestState)
    requires n <= |rs|
  {
    && (forall i :: 0 <= i < |st.losers| ==>
          && st.losers[i] < n && Eligible(rs[st.losers[i]])
          && rs[st.losers[i]].path in st.best
          && st.losers[i] != st.best[rs[st.losers[i]].path])
    && (forall i, i' :: 0 <= i < i' < |st.losers| ==> st.losers[i] != st.losers[i'])
  }

  /** Every eligible record seen so far is its group's best or a loser. */
  predicate Covered(rs: seq<Record>, n: nat, st: BestState)
    requires n <= |rs|
  {
    forall j :: 0 <= j < n && Eligible(rs[j]) ==>
      rs[j].path in st.best && (j == st.best[rs[j].path] || j in st.losers)
  }

  /** No record seen so far beats its group's best. */
  predicate Maximal(rs: seq<Record>, n: nat, st: BestState)
    requires n <= |rs| && BestOk(rs, n, st)
  {
    forall j :: 0 <= j < n && Eligible(rs[j]) && rs[j].path in st.best ==>
      !Better(ScoreOf(rs[j]), ScoreOf(rs[st.best[rs[j].path]]))
  }

  /** No earlier member of a group ties with its best on all three keys. */
  predicate EarliestOfTie(rs: seq<Record>, n: nat, st: BestState)
    requires n <= |rs| && BestOk(rs, n, st)
  {
    forall j :: 0 <= j < n && Eligible(rs[j]) && rs[j].path in st.best && j < st.best[rs[j].path] ==>
      ScoreOf(rs[j]) != ScoreOf(rs[st.best[rs[j].path]])
  }

  predicate Inv(rs: seq<Record>, n: nat, st: BestState)
    requires n <= |rs|
  {
    BestOk(rs, n, st) && LosersOk(rs, n, st) && Covered(rs, n, st)
    && Maximal(rs, n, st) && EarliestOfTie(rs, n, st)
  }

  lemma StepIneligible(rs: seq<Record>, st: BestState, j: nat)
    requires j < |rs| && Bounded(st, j) && Inv(rs, j, st) && !Eligible(rs[j])
    ensures Step(rs, st, j) == Success(st) && Inv(rs, j + 1, st)
  {
  }

  lemma StepNewGroup(rs: seq<Record>, st: BestState, j: nat)
    requires j < |rs| && Bounded(st, j) && Inv(rs, j, st)
    requires Eligible(rs[j]) && rs[j].path !in st.best
    ensures Step(rs, st, j).Success? && Inv(rs, j + 1, Step(rs, st, j).value)
  {
    var st' := Step(rs, st, j).value;
    var key := rs[j].path;
    assert st'.best == st.best[key := j] && st'.losers == st.losers;
    BetterIrreflexive(ScoreOf(rs[j]));
    forall i | 0 <= i < |st'.losers|
      ensures st'.losers[i] != st'.best[rs[st'.losers[i]].path]
    {
      assert rs[st.losers[i]].path in st.best;
    }
  }

  lemma StepReplace(rs: seq<Record>, st: BestState, j: nat)
    requires j < |rs| && Bounded(st, j) && Inv(rs, j, st)
    requires Eligible(rs[j]) && rs[j].path in st.best
    requires Compare(rs[j], rs[st.best[rs[j].path]]) == Success(true)
    ensures Step(rs, st, j).Success? && Inv(rs, j + 1, Step(rs, st, j).value)
  {
    var key := rs[j].path;
    var b := st.best[key];
    var st' := Step(rs, st, j).value;
    assert st' == BestState(st.best[key := j], st.losers + [b]);
    assert Better(ScoreOf(rs[j]), ScoreOf(rs[b]));
    assert b !in st.losers by {
      assert forall i :: 0 <= i < |st.losers| ==> st.losers[i] != b;
    }
    assert LosersOk(rs, j + 1, st') by {
      forall i | 0 <= i < |st'.losers|
        ensures st'.losers[i] != st'.best[rs[st'.losers[i]].path]
      {
        if i < |st.losers| { assert st'.losers[i] == st.losers[i]; }
      }
    }
    assert Maximal(rs, j + 1, st') by {
      forall y | 0 <= y < j + 1 && Eligible(rs[y]) && rs[y].path in st'.best
        ensures !Better(ScoreOf(rs[y]), ScoreOf(rs[st'.best[rs[y].path]]))
      {
        if rs[y].path == key && y < j && Better(ScoreOf(rs[y]), ScoreOf(rs[j])) {
          BetterTransitive(ScoreOf(rs[y]), ScoreOf(rs[j]), ScoreOf(rs[b]));
        }
        if y == j { BetterIrreflexive(ScoreOf(rs[j])); }
      }
    }
  }

  lemma StepKeep(rs: seq<Record>, st: BestState, j: nat)
    requires j < |rs| && Bounded(st, j) && Inv(rs, j, st)
    requires Eligible(rs[j]) && rs[j].path in st.best
    requires Compare(rs[j], rs[st.best[rs[j].path]]) == Success(false)
    ensures Step(rs, st, j).Success? && Inv(rs, j + 1, Step(rs, st, j).value)
  {
    var st' := Step(rs, st, j).value;
    assert st' == st.(losers := st.losers + [j]);
    assert LosersOk(rs, j + 1, st') by {
      forall i | 0 <= i < |st'.losers|
        ensures st'.losers[i] != st'.best[rs[st'.losers[i]].path]
      {
        if i < |st.losers| { assert st'.losers[i] == st.losers[i]; }
      }
    }
  }

  /** One turn keeps all five invariants. */
  lemma StepInv(rs: seq<Record>, st: BestState, j: nat)
    requires j < |rs| && Bounded(st, j) && Inv(rs, j, st)
    ensures Step(rs, st, j).Success? ==> Inv(rs, j + 1, Step(rs, st, j).value)
  {
    if !Eligible(rs[j]) {
      StepIneligible(rs, st, j);
    } else if rs[j].path !in st.best {
      StepNewGroup(rs, st, j);
    } else {
      match Compare(rs[j], rs[st.best[rs[j].path]])
      case Failure(_) =>
      case Success(true) => StepReplace(rs, st, j);
      case Success(false) => StepKeep(rs, st, j);
    }
  }

  /** The loop keeps all five invariants. */
  lemma {:induction false} FoldInv(rs: seq<Record>, n: nat)
    requires n <= |rs|
    ensures Fold(rs, n).Success? ==> Inv(rs, n, Fold(rs, n).value)
  {
    if n > 0 {
      FoldInv(rs, n - 1);
      var prev := Fold(rs, n - 1);
      if prev.Success? {
        StepInv(rs, prev.value, n - 1);
      }
    }
  }

  /** Both counted sections are present on every record that takes part,
      so no comparison can crash. */
  predicate WellFormed(rs: seq<Record>) {
    forall j :: 0 <= j < |rs| && Eligible(rs[j]) ==> rs[j].violations.Some? && rs[j].incomplete.Some?
  }

  /** On well-formed records the loop runs to completion. */
  lemma {:induction false} WellFormedSucceeds(rs: seq<Record>, n: nat)
    requires n <= |rs| && WellFormed(rs)
    ensures Fold(rs, n).Success?
  {
    if n > 0 {
      WellFormedSucceeds(rs, n - 1);
      FoldInv(rs, n - 1);
    }
  }

  /** The positions that survive: taking part and not in `toDelete`. */
  predicate Survives(rs: seq<Record>, st: BestState, j: nat)
    requires j < |rs|
  {
    Eligible(rs[j]) && j !in st.losers
  }

  /** The whole merge: exactly one record survives per group, it is the
      stored best, every other member of the group lost exactly once, and
      records without `newUrl` are never deleted. */
  lemma BestMergeOutcome(rs: seq<Record>)
    requires Fold(rs, |rs|).Success?
    ensures var st := Fold(rs, |rs|).value;
      && (forall j :: 0 <= j < |rs| && Eligible(rs[j]) ==>
            rs[j].path in st.best && (Survives(rs, st, j) <==> j == st.best[rs[j].path]))
      && (forall k :: k in st.best ==> Survives(rs, st, st.best[k]) && rs[st.best[k]].path == k)
      && (forall i, i' :: 0 <= i < i' < |st.losers| ==> st.losers[i] != st.losers[i'])
      && (forall i :: 0 <= i < |st.losers| ==> st.losers[i] < |rs| && Eligible(rs[st.losers[i]]))
  {
    FoldInv(rs, |rs|);
    var st := Fold(rs, |rs|).value;
    forall k | k in st.best ensures Survives(rs, st, st.best[k]) {
      assert forall i :: 0 <= i < |st.losers| ==> st.losers[i] != st.best[k];
    }
  }

  /** The survivor of a group is not beaten by any member of it, and no
      earlier member ties with it: on a full tie the first record wins. */
  lemma SurvivorIsGreatest(rs: seq<Record>, j: nat)
    requires Fold(rs, |rs|).Success?
    requires j < |rs| && Eligible(rs[j])
    ensures var st := Fold(rs, |rs|).value;
      && rs[j].path in st.best
      && !Better(ScoreOf(rs[j]), ScoreOf(rs[st.best[rs[j].path]]))
      && (j < st.best[rs[j].path] ==> ScoreOf(rs[j]) != ScoreOf(rs[st.best[rs[j].path]]))
  {
    FoldInv(rs, |rs|);
  }

  /** The records that take part lie in pairwise distinct groups. */
  predicate DistinctPaths(rs: seq<Record>) {
    forall j, j' :: 0 <= j < j' < |rs| && Eligible(rs[j]) && Eligible(rs[j']) ==> rs[j].path != rs[j'].path
  }

  /** When the records that take part have pairwise distinct paths
      (as after a merge), the loop deletes nothing: the merge is idempotent. */
  lemma {:induction false} DistinctPathsNoLosers(rs: seq<Record>, n: nat)
    requires n <= |rs|
    requires DistinctPaths(rs)
    ensures Fold(rs, n).Success? && Fold(rs, n).value.losers == []
  {
    if n > 0 {
      DistinctPathsNoLosers(rs, n - 1);
      FoldInv(rs, n - 1);
      var st := Fold(rs, n - 1).value;
      if Eligible(rs[n - 1]) && rs[n - 1].path in st.best {
        assert false;
      }
    }
  }

  /** Two survivors never share a group. */
  lemma SurvivorsInDistinctGroups(rs: seq<Record>, j: nat, j': nat)
    requires Fold(rs, |rs|).Success?
    requires j < j' < |rs|
    requires Survives(rs, Fold(rs, |rs|).value, j) && Survives(rs, Fold(rs, |rs|).value, j')
    ensures rs[j].path != rs[j'].path
  {
    BestMergeOutcome(rs);
  }

  /** Record `j` is not pushed to `toDelete`: it does not take part, or it
      is its group's survivor. */
  predicate Keeps(rs: seq<Record>, st: BestState, j: nat)
    requires j < |rs|
  {
    !Eligible(rs[j]) || Survives(rs, st, j)
  }

  /** `x` is one of the first `n` records and is not pushed. */
  predicate KeptBelow(rs: seq<Record>, st: BestState, n: nat, x: Record)
    requires n <= |rs|
  {
    exists j :: 0 <= j < n && x == rs[j] && Keeps(rs, st, j)
  }

  /** The positions below `n` whose records are not pushed, in increasing
      order. */
  function KeptPositions(rs: seq<Record>, st: BestState, n: nat): (p: seq<nat>)
    requires n <= |rs|
    ensures forall i :: 0 <= i < |p| ==> p[i] < n && Keeps(rs, st, p[i])
    ensures forall i, i' :: 0 <= i < i' < |p| ==> p[i] < p[i']
    ensures forall j :: 0 <= j < n && Keeps(rs, st, j) ==> j in p
  {
    if n == 0 then []
    else
      var prev := KeptPositions(rs, st, n - 1);
      if Keeps(rs, st, n - 1) then
        var p := prev + [n - 1];
        assert forall i :: 0 <= i < |prev| ==> p[i] == prev[i];
        p
      else prev
  }

  /** The records among the first `n` whose ids the merge does not push to
      `toDelete`: every record that does not take part and every survivor,
      and nothing else, in their original order. Their files can still be
      deleted by the prefix test of the deletion loop when a pushed id is a
      prefix of their names (`Dedup.KeptFilesRemain` says when they are
      not). */
  function Kept(rs: seq<Record>, st: BestState, n: nat): (r: seq<Record>)
    requires n <= |rs|
    ensures |r| == |KeptPositions(rs, st, n)|
    ensures forall i :: 0 <= i < |r| ==> r[i] == rs[KeptPositions(rs, st, n)[i]]
    ensures forall i :: 0 <= i < |r| ==> KeptBelow(rs, st, n, r[i])
    ensures forall j :: 0 <= j < n && Keeps(rs, st, j) ==> rs[j] in r
  {
    var p := KeptPositions(rs, st, n);
    var r := seq(|p|, i requires 0 <= i < |p| => rs[p[i]]);
    forall i | 0 <= i < |r| ensures KeptBelow(rs, st, n, r[i]) {
      assert r[i] == rs[p[i]] && p[i] < n && Keeps(rs, st, p[i]);
    }
    forall j | 0 <= j < n && Keeps(rs, st, j) ensures rs[j] in r {
      var i :| 0 <= i < |p| && p[i] == j;
      assert r[i] == rs[j];
    }
    r
  }

  lemma KeptDistinct(rs: seq<Record>, n: nat)
    requires Fold(rs, |rs|).Success? && n <= |rs|
    ensures DistinctPaths(Kept(rs, Fold(rs, |rs|).value, n))
  {
    var st := Fold(rs, |rs|).value;
    var p := KeptPositions(rs, st, n);
    var r := Kept(rs, st, n);
    forall i, i' | 0 <= i < i' < |r| && Eligible(r[i]) && Eligible(r[i'])
      ensures r[i].path != r[i'].path
    {
      SurvivorsInDistinctGroups(rs, p[i], p[i']);
    }
  }

  /** The records a merge does not push merge to themselves: a second run
      pushes nothing. */
  lemma MergeIdempotent(rs: seq<Record>)
    requires Fold(rs, |rs|).Success?
    ensures var kept := Kept(rs, Fold(rs, |rs|).value, |rs|);
      Fold(kept, |kept|).Success? && Fold(kept, |kept|).value.losers == []
  {
    var kept := Kept(rs, Fold(rs, |rs|).value, |rs|);
    KeptDistinct(rs, |rs|);
    DistinctPathsNoLosers(kept, |kept|);
  }
}

=== FILE: capture.dfy ===
/** What the `axeScan` decorator of axeDecorator.ts persists after a
    scan: whether a record is written at all, the fields it adds to the
    axe result, the record's file name and the screenshot names. The scan,
    the URL parser, the clock and the random UUID are parameters. */
module Capture {
  import opened Wrappers
  import opened Strings
  import opened Records
  import opened EnvConfig
  import opened Fingerprint
  import opened PageNames
  import opened Deletion
  import BestMerge

  /** The parts of an axe result the decorator uses; `pathname` and
      `queryKeys` are what the URL parser makes of `url`. */
  datatype ScanResult = ScanResult(
    url: string,
    pathname: string,
    queryKeys: seq<string>,
    violations: seq<Issue>,
    incomplete: seq<Issue>,
    passes: seq<Issue>,
    inapplicable: seq<Issue>,
    timestamp: Option<int>)

  /** `s.slice(-k)` */
  function LastChars(s: string, k: nat): (r: string)
    ensures |r| == if |s| <= k then |s| else k
    ensures EndsWith(s, r)
  {
    if |s| <= k then s else s[|s| - k..]
  }

  /** The last four characters of the decimal clock reading denote the
      reading modulo 10000. */
  lemma LastFourDigits(n: nat)
    ensures DigitsValue(LastChars(NatToString(n), 4)) == n % 10000
  {
    var s := NatToString(n);
    NatToStringValue(n);
    LastFourDigitsMod(s, n);
  }

  /** `randomUUID() + new Date().getTime().toString().slice(-4)`: the UUID
      followed by the last (up to) four decimal digits of the clock. */
  function GenerateId(uuid: string, millis: nat): (id: string)
    ensures StartsWith(id, uuid)
    ensures |uuid| < |id| <= |uuid| + 4
    ensures millis >= 1000 ==> |id| == |uuid| + 4
    ensures forall k :: |uuid| <= k < |id| ==> IsDigit(id[k])
    ensures DigitsValue(id[|uuid|..]) == millis % 10000
  {
    var digits := NatToString(millis);
    var tail := LastChars(digits, 4);
    var id := uuid + tail;
    assert id[..|uuid|] == uuid;
    assert id[|uuid|..] == tail;
    assert forall k :: 0 <= k < |tail| ==> tail[k] == digits[|digits| - |tail| + k];
    LastFourDigits(millis);
    id
  }

  /** The record as written: the axe result plus `id`, `newUrl`,
      `pagePath` and `path`. */
  function Persisted(scan: ScanResult, id: string, baseUrl: string): (r: Record)
    ensures r.id == Some(id) && r.url == Str(scan.url)
    ensures r.newUrl.Some? && r.pagePath.Some? && r.path.Str?
    ensures r.newUrl.value == NormalizeUrl(scan.pathname, scan.queryKeys)
    ensures r.pagePath.value == RelativePath(r.newUrl.value, baseUrl)
    ensures r.path.text == FormatUrl(r.newUrl.value, baseUrl)
    ensures HasMainSections(r) && r.inapplicable.Some?
  {
    var newUrl := NormalizeUrl(scan.pathname, scan.queryKeys);
    Record(Some(id), Str(scan.url), Some(newUrl), Some(RelativePath(newUrl, baseUrl)),
      Str(FormatUrl(newUrl, baseUrl)), scan.timestamp,
      Some(scan.violations), Some(scan.incomplete), Some(scan.passes), Some(scan.inapplicable))
  }

  /** `<id>_<kind>_<n>.png` */
  function ScreenshotName(id: string, kind: string, n: nat): string {
    id + "_" + kind + "_" + NatToString(n) + ".png"
  }

  /** One screenshot per issue of the section, numbered from 1. */
  function Screenshots(id: string, kind: string, count: nat): (names: seq<string>)
    ensures |names| == count
    ensures forall i :: 0 <= i < count ==> names[i] == ScreenshotName(id, kind, i + 1)
  {
    seq(count, i requires 0 <= i < count => ScreenshotName(id, kind, i + 1))
  }

  /** Different numbers give different screenshot names: the number is
      read back from between the fixed prefix and `.png`. */
  lemma ScreenshotNameInjective(id: string, kind: string, n: nat, m: nat)
    requires ScreenshotName(id, kind, n) == ScreenshotName(id, kind, m)
    ensures n == m
  {
    var pre := id + "_" + kind + "_";
    var a := NatToString(n);
    var b := NatToString(m);
    var x := ScreenshotName(id, kind, n);
    assert x == pre + a + ".png" == pre + b + ".png";
    assert |a| == |b|;
    assert x[|pre|..|pre| + |a|] == a;
    assert (pre + b + ".png")[|pre|..|pre| + |b|] == b;
    NatToStringValue(n);
    NatToStringValue(m);
  }

  /** No screenshot of a section overwrites another. */
  lemma ScreenshotsDistinct(id: string, kind: string, count: nat)
    ensures var names := Screenshots(id, kind, count);
      forall i, j :: 0 <= i < j < count ==> names[i] != names[j]
  {
    var names := Screenshots(id, kind, count);
    forall i, j | 0 <= i < j < count ensures names[i] != names[j] {
      if names[i] == names[j] {
        ScreenshotNameInjective(id, kind, i + 1, j + 1);
      }
    }
  }

  /** What one decorated call writes: nothing when scanning is off, no
      page is found, or all of violations, incomplete and passes are
      empty; otherwise the record under `<id>.json` and, when screenshots
      are on, one screenshot per violation and per incomplete issue. */
  datatype Written = Written(record: Record, files: seq<string>)

  /** The record's file, then the screenshots when they are on. */
  function WrittenFiles(cfg: Config, scan: ScanResult, id: string): seq<string> {
    var shots := if cfg.screenshots
      then Screenshots(id, "violations", |scan.violations|) + Screenshots(id, "incomplete", |scan.incomplete|)
      else [];
    [id + ".json"] + shots
  }

  function Capture(cfg: Config, pageFound: bool, scan: ScanResult, id: string, baseUrl: string): (w: Option<Written>)
    ensures w.Some? <==> (cfg.scan && pageFound
      && (|scan.violations| > 0 || |scan.incomplete| > 0 || |scan.passes| > 0))
    ensures w.Some? ==> w.value.record == Persisted(scan, id, baseUrl)
    ensures w.Some? ==> |w.value.files| >= 1 && w.value.files[0] == id + ".json"
    ensures w.Some? ==> (|w.value.files| == 1 <==> !cfg.screenshots || (scan.violations == [] && scan.incomplete == []))
  {
    if !cfg.scan || !pageFound then None
    else if |scan.violations| > 0 || |scan.incomplete| > 0 || |scan.passes| > 0 then
      Some(Written(Persisted(scan, id, baseUrl), WrittenFiles(cfg, scan, id)))
    else None
  }

  /** A written record takes part in the `best` merge whenever the page has
      a pathname, and reading it back keeps its id: the file id of
      `<id>.json` is `id`, and the backfill leaves the record alone. */
  lemma PersistedReadsBack(scan: ScanResult, id: string, baseUrl: string)
    requires id != "" && scan.pathname != ""
    ensures var r := Persisted(scan, id, baseUrl);
      && BestMerge.Eligible(r)
      && FileId(id + ".json") == id
      && Backfill(Entry(id + ".json", r)) == r
  {
    NormalizeUrlNonEmpty(scan.pathname, scan.queryKeys);
    assert EndsWith(id + ".json", ".json") by {
      assert (id + ".json")[|id|..] == ".json";
    }
  }

  lemma ScreenshotStartsWithId(id: string, kind: string, n: nat)
    ensures StartsWith(ScreenshotName(id, kind, n), id)
  {
    assert ScreenshotName(id, kind, n) == id + ("_" + kind + "_" + NatToString(n) + ".png");
  }

  /** Every file a call writes starts with the record's id. */
  lemma WrittenFilesStartWithId(cfg: Config, scan: ScanResult, id: string)
    ensures var files := WrittenFiles(cfg, scan, id);
      forall i :: 0 <= i < |files| ==> StartsWith(files[i], id)
  {
    var files := WrittenFiles(cfg, scan, id);
    var nv := |scan.violations|;
    forall i | 0 <= i < |files| ensures StartsWith(files[i], id) {
      if i == 0 {
        assert (id + ".json")[..|id|] == id;
      } else if i - 1 < nv {
        assert files[i] == ScreenshotName(id, "violations", i);
        ScreenshotStartsWithId(id, "violations", i);
      } else {
        assert files[i] == ScreenshotName(id, "incomplete", i - nv);
        ScreenshotStartsWithId(id, "incomplete", i - nv);
      }
    }
  }

  /** Deleting the id as a loser removes the record and all its
      screenshots. */
  lemma WrittenFilesDeletedWithId(cfg: Config, pageFound: bool, scan: ScanResult, id: string, baseUrl: string,
                                  dir: seq<string>, ids: seq<string>, k: nat)
    requires Capture(cfg, pageFound, scan, id, baseUrl).Some?
    requires k < |ids| && ids[k] == id
    ensures forall f :: f in Capture(cfg, pageFound, scan, id, baseUrl).value.files ==> f !in DeleteAll(dir, ids)
  {
    WrittenFilesStartWithId(cfg, scan, id);
    DeleteAllIsSurvivors(dir, ids);
  }

  /** Generated ids all have the same length, so one is a prefix of
      another record's file name only when the two ids are equal: prefix
      deletion of a generated id never reaches another generated record. */
  lemma SameLengthIdsDoNotCollide(a: string, b: string, suffix: string)
    requires |a| == |b| && a != b
    ensures !StartsWith(b + suffix, a)
  {
    assert (b + suffix)[..|a|] == b;
  }
}

=== FILE: cardfilter.dfy ===
/** The issue cards of the report page and the filter that shows or
    hides them (`generateIssueCards` of buildReport.js and `applyFilters`
    of main.js). A card is reduced to what the filter reads: the tab that
    holds it, the class and text of its impact badge, and the texts of its
    tag and disability labels. */
module CardFilter {
  import opened Wrappers
  import opened Strings
  import opened Records
  import opened Counts
  import opened Escape

  datatype Card = Card(
    tab: Option<string>,
    badgeClass: string,
    badgeText: string,
    tags: seq<string>,
    disabilities: seq<string>)

  /** The three multi-select filters (`$(filter).val() || []`). */
  datatype Filters = Filters(impacts: seq<string>, tags: seq<string>, disabilities: seq<string>)

  const NoFilters: Filters := Filters([], [], [])

  /** The badge colour: only the exact impacts `critical`, `serious` and
      `moderate` have their own; anything else is green. */
  function ImpactClass(impact: JsonString): (cls: string)
    ensures cls in {"bg-red-600", "bg-orange-500", "bg-yellow-500", "bg-green-500"}
    ensures cls == "bg-yellow-500" <==> impact == Str("moderate")
  {
    if impact == Str("critical") then "bg-red-600"
    else if impact == Str("serious") then "bg-orange-500"
    else if impact == Str("moderate") then "bg-yellow-500"
    else "bg-green-500"
  }

  /** `issue.impact || 'none'` */
  function BadgeText(impact: JsonString): (t: string)
    ensures t != ""
    ensures JsonTruthy(impact) ==> t == impact.text
    ensures !JsonTruthy(impact) ==> t == "none"
  {
    if JsonTruthy(impact) then impact.text else "none"
  }

  /** The texts of the disability labels: each name is HTML-escaped into
      the page, and the label's text content is the unescaped name. */
  function DisabilityTexts(names: seq<JsonString>): (r: seq<string>)
    ensures |r| == |names|
    ensures forall k :: 0 <= k < |names| ==> r[k] == TextOrEmpty(names[k])
  {
    seq(|names|, k requires 0 <= k < |names| => LabelText(names[k]))
  }

  /** The text content of a label written as `escapeHTML(name)`: escaping
      loses nothing, and a missing or `null` name is an empty label. */
  function LabelText(name: JsonString): (t: string)
    ensures name.Str? ==> t == name.text
    ensures !name.Str? ==> t == ""
  {
    if name.Str? then EscapeRoundTrip(name.text); Unescape(EscapeHtml(Some(name.text)))
    else Unescape(EscapeHtml(None))
  }

  /** The card of one issue in tab `tab`; `None` where the page generation
      fails because the issue has no `tags` array or no `nodes` array (the
      card template reads `issue.tags.map` and `issue.nodes.length`). A
      missing or non-array disability data file gives no disability
      labels. */
  function CardOf(issue: Issue, tab: Option<string>, affected: Option<seq<Rule>>): (r: Option<Card>)
    ensures r.Some? <==> issue.tags.Some? && issue.nodes.Some?
    ensures r.Some? ==> r.value.tab == tab && r.value.tags == issue.tags.value
    ensures r.Some? ==> r.value.badgeClass == ImpactClass(issue.impact)
    ensures r.Some? ==> r.value.badgeText == BadgeText(issue.impact)
    ensures r.Some? ==> r.value.disabilities == DisabilityTexts(DisabilitiesOf(issue, affected.GetOr([])))
    ensures r.Some? ==> forall d :: d in r.value.disabilities <==>
      exists k :: 0 <= k < |DisabilitiesOf(issue, affected.GetOr([]))| && d == TextOrEmpty(DisabilitiesOf(issue, affected.GetOr([]))[k])
  {
    if issue.tags.None? || issue.nodes.None? then None
    else
      var names := DisabilitiesOf(issue, affected.GetOr([]));
      var texts := DisabilityTexts(names);
      assert forall d :: d in texts <==> exists k :: 0 <= k < |names| && d == TextOrEmpty(names[k]) by {
        forall d | d in texts ensures exists k :: 0 <= k < |names| && d == TextOrEmpty(names[k]) {
          var k :| 0 <= k < |texts| && texts[k] == d;
          assert d == TextOrEmpty(names[k]);
        }
      }
      Some(Card(tab, ImpactClass(issue.impact), BadgeText(issue.impact), issue.tags.value, texts))
  }

  /** The classes the impact filter looks for (`card.querySelector`). The
      page as written lists `bg-blue-600`, which no badge carries, and
      leaves out `bg-yellow-500`, the badge of moderate issues. */
  const QueryAsWritten: set<string> := {"bg-red-600", "bg-orange-500", "bg-blue-600", "bg-green-500"}

  /** Every badge class: the query the impact filter evidently means. */
  const QueryCorrected: set<string> := {"bg-red-600", "bg-orange-500", "bg-yellow-500", "bg-green-500"}

  /** The impact element the filter finds in a card: the badge, when its
      class is one the query lists. */
  function ImpactElement(card: Card, query: set<string>): Option<string> {
    if card.badgeClass in query then Some(card.badgeText) else None
  }

  /** Some selected value, lower-cased, occurs in some label text,
      lower-cased. */
  predicate AnyIncludes(texts: seq<string>, selected: seq<string>) {
    exists i, j :: 0 <= i < |texts| && 0 <= j < |selected| && Includes(ToLower(texts[i]), ToLower(selected[j]))
  }

  predicate ImpactOk(card: Card, f: Filters, query: set<string>) {
    f.impacts == [] || (ImpactElement(card, query).Some? && AnyIncludes([card.badgeText], f.impacts))
  }

  predicate TagOk(card: Card, f: Filters) {
    f.tags == [] || AnyIncludes(card.tags, f.tags)
  }

  predicate DisabilityOk(card: Card, f: Filters) {
    f.disabilities == [] || AnyIncludes(card.disabilities, f.disabilities)
  }

  /** The card passes every active filter: within a filter the selected
      values are alternatives, across filters all must hold. */
  predicate Shown(card: Card, f: Filters, query: set<string>) {
    ImpactOk(card, f, query) && TagOk(card, f) && DisabilityOk(card, f)
  }

  /** With no filter active every card is shown. */
  lemma NoFiltersShowAll(card: Card, query: set<string>)
    ensures Shown(card, NoFilters, query)
  {
  }

  /** Selecting one more value in an active filter never hides a card. */
  lemma MoreValuesShowMore(card: Card, f: Filters, query: set<string>, extra: seq<string>)
    requires Shown(card, f, query)
    ensures f.impacts != [] ==> Shown(card, Filters(f.impacts + extra, f.tags, f.disabilities), query)
    ensures f.tags != [] ==> Shown(card, Filters(f.impacts, f.tags + extra, f.disabilities), query)
    ensures f.disabilities != [] ==> Shown(card, Filters(f.impacts, f.tags, f.disabilities + extra), query)
  {
    if f.impacts != [] {
      WiderSelection([card.badgeText], f.impacts, extra);
    }
    if f.tags != [] {
      WiderSelection(card.tags, f.tags, extra);
    }
    if f.disabilities != [] {
      WiderSelection(card.disabilities, f.disabilities, extra);
    }
  }

  lemma WiderSelection(texts: seq<string>, selected: seq<string>, extra: seq<string>)
    requires AnyIncludes(texts, selected)
    ensures AnyIncludes(texts, selected + extra)
  {
    var i, j :| 0 <= i < |texts| && 0 <= j < |selected| && Includes(ToLower(texts[i]), ToLower(selected[j]));
    assert (selected + extra)[j] == selected[j];
  }

  /** The match is by substring: selecting a tag also selects every tag
      that contains it, such as `wcag2a` selecting `wcag2aa` cards. */
  lemma TagMatchIsSubstring(card: Card, k: nat, tag: string)
    requires k < |card.tags| && StartsWith(ToLower(card.tags[k]), ToLower(tag))
    ensures TagOk(card, Filters([], [tag], []))
  {
    assert OccursAt(ToLower(card.tags[k]), ToLower(tag), 0);
    assert [tag][0] == tag;
  }

  /** As written, a moderate card has no impact element the filter finds,
      so it is hidden whenever any impact is selected, `moderate` included. */
  lemma ModerateNeverMatches(issue: Issue, tab: Option<string>, affected: Option<seq<Rule>>, f: Filters)
    requires issue.impact == Str("moderate") && issue.tags.Some? && issue.nodes.Some?
    requires f.impacts != []
    ensures !Shown(CardOf(issue, tab, affected).value, f, QueryAsWritten)
  {
  }

  /** Selecting one of an issue's own tags in the tag filter shows its
      card. */
  lemma OwnTagSelectsCard(issue: Issue, tab: Option<string>, affected: Option<seq<Rule>>, k: nat)
    requires CardOf(issue, tab, affected).Some? && k < |issue.tags.value|
    ensures TagOk(CardOf(issue, tab, affected).value, Filters([], [issue.tags.value[k]], []))
  {
    var card := CardOf(issue, tab, affected).value;
    var t := ToLower(card.tags[k]);
    assert StartsWith(t, t) by { assert t[..|t|] == t; }
    TagMatchIsSubstring(card, k, card.tags[k]);
  }

  /** Selecting one of the names of the disabilities an issue's rule
      affects shows its card. */
  lemma OwnDisabilitySelectsCard(issue: Issue, tab: Option<string>, affected: Option<seq<Rule>>, m: nat)
    requires CardOf(issue, tab, affected).Some?
    requires m < |DisabilitiesOf(issue, affected.GetOr([]))| && DisabilitiesOf(issue, affected.GetOr([]))[m].Str?
    ensures DisabilityOk(CardOf(issue, tab, affected).value,
      Filters([], [], [DisabilitiesOf(issue, affected.GetOr([]))[m].text]))
  {
    var card := CardOf(issue, tab, affected).value;
    var name := DisabilitiesOf(issue, affected.GetOr([]))[m].text;
    assert card.disabilities[m] == name;
    LowerIncludesSelf(name);
    assert [name][0] == name;
  }

  /** The value the impact filter offers for an impact. */
  lemma {:induction false} LowerIncludesSelf(s: string)
    ensures Includes(ToLower(s), ToLower(s))
  {
    assert OccursAt(ToLower(s), ToLower(s), 0);
  }

  /** With every badge class queried, selecting the impact of an issue
      (as offered, in lower case) shows its card, whatever that impact. */
  lemma SelectedImpactShown(issue: Issue, tab: Option<string>, affected: Option<seq<Rule>>, f: Filters)
    requires JsonTruthy(issue.impact) && issue.tags.Some? && issue.nodes.Some?
    requires ToLower(issue.impact.text) in f.impacts
    ensures ImpactOk(CardOf(issue, tab, affected).value, f, QueryCorrected)
  {
    var card := CardOf(issue, tab, affected).value;
    var j :| 0 <= j < |f.impacts| && f.impacts[j] == ToLower(issue.impact.text);
    LowerIdempotentText(issue.impact.text);
    LowerIncludesSelf(issue.impact.text);
    assert [card.badgeText][0] == issue.impact.text;
  }

  lemma LowerIdempotentText(s: string)
    ensures ToLower(ToLower(s)) == ToLower(s)
  {
    LowerIdempotent(s);
  }

  /** The number of cards of tab `tab` among the first `n` that are shown. */
  function CountShown(cards: seq<Card>, f: Filters, query: set<string>, tab: string, n: nat): (c: nat)
    requires n <= |cards|
    ensures c <= n
  {
    if n == 0 then 0
    else
      CountShown(cards, f, query, tab, n - 1) +
      (if cards[n - 1].tab == Some(tab) && tab != "" && Shown(cards[n - 1], f, query) then 1 else 0)
  }

  /** The counters of `visibleCounts`. */
  const Tabs: seq<string> := ["violations", "incomplete", "inapplicable", "passes"]

  /** Whether some text contains some selected value, both compared in
      lower case (the card filter's `some`/`includes` test). */
  method AnyMatch(texts: seq<string>, selected: seq<string>) returns (found: bool)
    ensures found <==> AnyIncludes(texts, selected)
  {
    found := false;
    var i := 0;
    while i < |texts|
      invariant 0 <= i <= |texts|
      invariant found <==> exists i', j :: 0 <= i' < i && 0 <= j < |selected| && Includes(ToLower(texts[i']), ToLower(selected[j]))
    {
      var text := ToLower(texts[i]);
      var j := 0;
      var hit := false;
      while j < |selected|
        invariant 0 <= j <= |selected|
        invariant hit <==> exists j' :: 0 <= j' < j && Includes(text, ToLower(selected[j']))
      {
        if Includes(text, ToLower(selected[j])) {
          hit := true;
        }
        j := j + 1;
      }
      if hit {
        found := true;
      }
      i := i + 1;
    }
  }

  /** One card: `showCard` as the handler computes it, each later filter
      consulted only while the card is still shown. */
  method ShowCard(card: Card, f: Filters, query: set<string>) returns (show: bool)
    ensures show <==> Shown(card, f, query)
  {
    show := true;
    if |f.impacts| > 0 {
      var element := ImpactElement(card, query);
      if element.None? {
        show := false;
      } else {
        var m := AnyMatch([element.value], f.impacts);
        if !m { show := false; }
      }
    }
    if |f.tags| > 0 && show {
      var m := AnyMatch(card.tags, f.tags);
      if !m { show := false; }
    }
    if |f.disabilities| > 0 && show {
      var m := AnyMatch(card.disabilities, f.disabilities);
      if !m { show := false; }
    }
  }

  /** `applyFilters`: the display of each card (`None` for a card outside
      any tab, which is left as it is) and the visible count of each tab. */
  method ApplyFilters(cards: seq<Card>, f: Filters, query: set<string>)
    returns (display: seq<Option<bool>>, counts: map<string, nat>)
    ensures |display| == |cards|
    ensures forall k :: 0 <= k < |cards| ==>
      display[k] == if Truthy(cards[k].tab) then Some(Shown(cards[k], f, query)) else None
    ensures forall t :: t in counts <==> t in Tabs
    ensures forall t :: t in Tabs ==> counts[t] == CountShown(cards, f, query, t, |cards|)
  {
    display := [];
    counts := map["violations" := 0, "incomplete" := 0, "inapplicable" := 0, "passes" := 0];
    var k := 0;
    while k < |cards|
      invariant 0 <= k <= |cards| && |display| == k
      invariant forall k' :: 0 <= k' < k ==>
        display[k'] == if Truthy(cards[k'].tab) then Some(Shown(cards[k'], f, query)) else None
      invariant forall t :: t in counts <==> t in Tabs
      invariant forall t :: t in Tabs ==> counts[t] == CountShown(cards, f, query, t, k)
    {
      var card := cards[k];
      if !Truthy(card.tab) {
        display := display + [None];
      } else {
        var show := ShowCard(card, f, query);
        display := display + [Some(show)];
        var tab := card.tab.value;
        if show && tab in counts {
          counts := counts[tab := counts[tab] + 1];
        }
      }
      k := k + 1;
    }
  }
}

=== FILE: counts.dfy ===
/** The counting reductions of the dashboard in buildReport.js: the
    summary cards, the per-page table, the impact chart, the disability
    tally, and the values offered by a page's filters. They count issues
    (rule results), not the nodes inside them. */
module Counts {
  import opened Wrappers
  import opened Strings
  import opened Sorting
  import opened Records

  /** Sum of one section's lengths over all reports; missing counts as 0. */
  function SectionTotal(reports: seq<Record>, section: Record -> Option<seq<Issue>>): nat {
    if reports == [] then 0
    else SectionLength(section(reports[0])) + SectionTotal(reports[1..], section)
  }

  function Violations(r: Record): Option<seq<Issue>> { r.violations }
  function Incomplete(r: Record): Option<seq<Issue>> { r.incomplete }
  function Passes(r: Record): Option<seq<Issue>> { r.passes }

  /** The four summary cards of `generateSummaryCart`. */
  datatype Summary = Summary(total: nat, violations: nat, incomplete: nat, passes: nat)

  function SummaryOf(reports: seq<Record>): (s: Summary)
    ensures s.total == s.violations + s.incomplete + s.passes
  {
    var v := SectionTotal(reports, Violations);
    var i := SectionTotal(reports, Incomplete);
    var p := SectionTotal(reports, Passes);
    Summary(v + i + p, v, i, p)
  }

  /** The counted cells of one row of `generateTableCards`. */
  datatype Row = Row(violations: nat, incomplete: nat, passes: nat, inapplicable: nat)

  function RowOf(r: Record): Row {
    Row(SectionLength(r.violations), SectionLength(r.incomplete),
        SectionLength(r.passes), SectionLength(r.inapplicable))
  }

  function RowsTotal(reports: seq<Record>): nat {
    if reports == [] then 0
    else var row := RowOf(reports[0]); row.violations + row.incomplete + row.passes + RowsTotal(reports[1..])
  }

  /** The summary's total is the sum of the table's violations,
      incomplete and passes cells: the cards and the table agree. */
  lemma {:induction false} SummaryMatchesTable(reports: seq<Record>)
    ensures SummaryOf(reports).total == RowsTotal(reports)
  {
    if reports != [] {
      SummaryMatchesTable(reports[1..]);
    }
  }

  /** Summaries of two batches of reports add up. */
  lemma {:induction false} SummaryAppend(a: seq<Record>, b: seq<Record>)
    ensures SummaryOf(a + b).violations == SummaryOf(a).violations + SummaryOf(b).violations
    ensures SummaryOf(a + b).incomplete == SummaryOf(a).incomplete + SummaryOf(b).incomplete
    ensures SummaryOf(a + b).passes == SummaryOf(a).passes + SummaryOf(b).passes
    ensures SummaryOf(a + b).total == SummaryOf(a).total + SummaryOf(b).total
  {
    SectionTotalAppend(a, b, Violations);
    SectionTotalAppend(a, b, Incomplete);
    SectionTotalAppend(a, b, Passes);
  }

  lemma {:induction false} SectionTotalAppend(a: seq<Record>, b: seq<Record>, section: Record -> Option<seq<Issue>>)
    ensures SectionTotal(a + b, section) == SectionTotal(a, section) + SectionTotal(b, section)
  {
    if a == [] {
      assert a + b == b;
    } else {
      SectionTotalAppend(a[1..], b, section);
      assert (a + b)[0] == a[0];
      assert (a + b)[1..] == a[1..] + b;
    }
  }

  /** `v.impact === impact`: strict equality, so a missing impact matches
      neither a string nor `null`. */
  function ImpactCount(issues: seq<Issue>, impact: JsonString): nat {
    if issues == [] then 0
    else (if issues[0].impact == impact then 1 else 0) + ImpactCount(issues[1..], impact)
  }

  /** `countImpacts(reports, impact)`: over the three sections of every report. */
  function CountImpacts(reports: seq<Record>, impact: JsonString): nat {
    if reports == [] then 0
    else
      var r := reports[0];
      ImpactCount(SectionOrEmpty(r.violations), impact)
        + ImpactCount(SectionOrEmpty(r.incomplete), impact)
        + ImpactCount(SectionOrEmpty(r.passes), impact)
        + CountImpacts(reports[1..], impact)
  }

  /** An impact the chart shows: one of its four slices. */
  predicate Charted(impact: JsonString) {
    impact == Str("critical") || impact == Str("serious") || impact == Str("moderate") || impact == Null
  }

  /** Issues whose impact has no slice (such as `minor`, or no impact). */
  function UnchartedCount(issues: seq<Issue>): nat {
    if issues == [] then 0
    else (if Charted(issues[0].impact) then 0 else 1) + UnchartedCount(issues[1..])
  }

  function UnchartedTotal(reports: seq<Record>): nat {
    if reports == [] then 0
    else
      var r := reports[0];
      UnchartedCount(SectionOrEmpty(r.violations)) + UnchartedCount(SectionOrEmpty(r.incomplete))
        + UnchartedCount(SectionOrEmpty(r.passes)) + UnchartedTotal(reports[1..])
  }

  function Slices(reports: seq<Record>): nat {
    CountImpacts(reports, Str("critical")) + CountImpacts(reports, Str("serious"))
      + CountImpacts(reports, Str("moderate")) + CountImpacts(reports, Null)
  }

  lemma {:induction false} IssuesPartition(issues: seq<Issue>)
    ensures ImpactCount(issues, Str("critical")) + ImpactCount(issues, Str("serious"))
      + ImpactCount(issues, Str("moderate")) + ImpactCount(issues, Null)
      + UnchartedCount(issues) == |issues|
  {
    if issues != [] {
      IssuesPartition(issues[1..]);
    }
  }

  /** The four slices of the impact chart and the issues with any other
      impact together make up the summary's total: every issue is counted
      at most once, and `minor` or missing impacts are left off the chart. */
  lemma {:induction false} ImpactChartPartition(reports: seq<Record>)
    ensures Slices(reports) + UnchartedTotal(reports) == SummaryOf(reports).total
  {
    if reports != [] {
      var r := reports[0];
      ImpactChartPartition(reports[1..]);
      IssuesPartition(SectionOrEmpty(r.violations));
      IssuesPartition(SectionOrEmpty(r.incomplete));
      IssuesPartition(SectionOrEmpty(r.passes));
    }
  }

  /** One entry of the disability data file: a rule and the disabilities it
      affects (`disabilityTypesAffected`), each with a `name` that may be
      missing, `null` or a string. */
  datatype Rule = Rule(ruleId: string, disabilities: Option<seq<JsonString>>)

  /** The position of the first rule for `id` at or after `from`. */
  function FindRuleFrom(affected: seq<Rule>, id: string, from: nat): (r: Option<nat>)
    requires from <= |affected|
    ensures r.Some? ==> from <= r.value < |affected| && affected[r.value].ruleId == id
    ensures r.Some? ==> forall k :: from <= k < r.value ==> affected[k].ruleId != id
    ensures r.None? ==> forall k :: from <= k < |affected| ==> affected[k].ruleId != id
    decreases |affected| - from
  {
    if from == |affected| then None
    else if affected[from].ruleId == id then Some(from)
    else FindRuleFrom(affected, id, from + 1)
  }

  /** `affected.find(item => item.ruleId === id)`: the first rule for `id`. */
  function FindRule(affected: seq<Rule>, id: string): Option<Rule> {
    match FindRuleFrom(affected, id, 0)
    case None => None
    case Some(k) => Some(affected[k])
  }

  /** The disabilities the issue's rule affects, as listed in the data file. */
  function DisabilitiesOf(issue: Issue, affected: seq<Rule>): seq<JsonString> {
    match FindRule(affected, issue.id)
    case None => []
    case Some(rule) => rule.disabilities.GetOr([])
  }

  /** The key a name becomes as an object property (`acc[disability]`): a
      missing name is the key `"undefined"` and a `null` name the key
      `"null"`, so each shares its key with the string of that spelling. */
  function PropertyKey(name: JsonString): (r: string)
    ensures name.Str? ==> r == name.text
    ensures r == "undefined" <==> name == Missing || name == Str("undefined")
    ensures r == "null" <==> name == Null || name == Str("null")
  {
    match name
    case Missing => "undefined"
    case Null => "null"
    case Str(t) => t
  }

  function Keys(names: seq<JsonString>): (r: seq<string>)
    ensures |r| == |names|
    ensures forall k :: 0 <= k < |names| ==> r[k] == PropertyKey(names[k])
  {
    seq(|names|, k requires 0 <= k < |names| => PropertyKey(names[k]))
  }

  function IssuesDisabilities(issues: seq<Issue>, affected: seq<Rule>): seq<string> {
    if issues == [] then []
    else Keys(DisabilitiesOf(issues[0], affected)) + IssuesDisabilities(issues[1..], affected)
  }

  /** `disabilitiesArray` of `generateDisabilityAffected`: `None` when a
      report lacks one of the three sections it iterates. */
  function DisabilityNames(reports: seq<Record>, affected: seq<Rule>): (r: Option<seq<string>>)
    ensures r.Some? <==> forall k :: 0 <= k < |reports| ==> HasMainSections(reports[k])
  {
    if reports == [] then Some([])
    else
      var r := reports[0];
      if !HasMainSections(r) then None
      else match DisabilityNames(reports[1..], affected)
        case None => None
        case Some(rest) =>
          Some(IssuesDisabilities(r.violations.value, affected)
            + IssuesDisabilities(r.incomplete.value, affected)
            + IssuesDisabilities(r.passes.value, affected)
            + rest)
  }

  /** `disabilityCounts`: how often each name occurs. */
  method Tally(names: seq<string>) returns (counts: map<string, nat>)
    ensures forall d :: d in counts <==> d in names
    ensures forall d :: d in counts ==> counts[d] == multiset(names)[d]
  {
    counts := map[];
    var i := 0;
    while i < |names|
      invariant 0 <= i <= |names|
      invariant forall d :: d in counts <==> d in names[..i]
      invariant forall d :: d in counts ==> counts[d] == multiset(names[..i])[d]
    {
      var d := names[i];
      var c := if d in counts then counts[d] else 0;
      assert names[..i + 1] == names[..i] + [d];
      counts := counts[d := c + 1];
      i := i + 1;
    }
    assert names[..i] == names;
  }

  /** The three value lists of a page's filter drop-downs. */
  datatype FilterValues = FilterValues(impacts: seq<string>, tags: seq<string>, disabilities: seq<string>)

  /** The issue has a truthy impact that lower-cases to `y`. */
  predicate ImpactIs(issue: Issue, y: string) {
    JsonTruthy(issue.impact) && ToLower(issue.impact.text) == y
  }

  /** One of the issue's tags lower-cases to `y`. */
  predicate HasTag(issue: Issue, y: string) {
    issue.tags.Some? && exists t :: 0 <= t < |issue.tags.value| && ToLower(issue.tags.value[t]) == y
  }

  /** The issue's rule affects a disability with the non-empty name `y`. */
  predicate AffectsNamed(issue: Issue, affected: seq<Rule>, y: string) {
    Str(y) in DisabilitiesOf(issue, affected) && y != ""
  }

  function ImpactValues(issues: seq<Issue>): (r: seq<string>)
    ensures forall y :: y in r <==> exists k :: 0 <= k < |issues| && ImpactIs(issues[k], y)
  {
    if issues == [] then []
    else
      var here := if JsonTruthy(issues[0].impact) then [ToLower(issues[0].impact.text)] else [];
      var rest := ImpactValues(issues[1..]);
      assert forall k :: 0 <= k < |issues[1..]| ==> issues[1..][k] == issues[k + 1];
      here + rest
  }

  function LowerAll(tags: seq<string>): (r: seq<string>)
    ensures |r| == |tags|
    ensures forall k :: 0 <= k < |tags| ==> r[k] == ToLower(tags[k])
  {
    seq(|tags|, k requires 0 <= k < |tags| => ToLower(tags[k]))
  }

  function TagValues(issues: seq<Issue>): (r: seq<string>)
    ensures forall y :: y in r <==> exists k :: 0 <= k < |issues| && HasTag(issues[k], y)
  {
    if issues == [] then []
    else
      var here := LowerAll(issues[0].tags.GetOr([]));
      var rest := TagValues(issues[1..]);
      assert forall k :: 0 <= k < |issues[1..]| ==> issues[1..][k] == issues[k + 1];
      here + rest
  }

  /** The named disabilities of the issues' rules; unnamed ones are skipped. */
  function NamedDisabilities(issues: seq<Issue>, affected: seq<Rule>): (r: seq<string>)
    ensures forall y :: y in r <==> exists k :: 0 <= k < |issues| && AffectsNamed(issues[k], affected, y)
  {
    if issues == [] then []
    else
      var ds := DisabilitiesOf(issues[0], affected);
      var here := Named(ds);
      var rest := NamedDisabilities(issues[1..], affected);
      assert forall k :: 0 <= k < |issues[1..]| ==> issues[1..][k] == issues[k + 1];
      here + rest
  }

  function Named(ds: seq<JsonString>): (r: seq<string>)
    ensures forall y :: y in r <==> Str(y) in ds && y != ""
  {
    if ds == [] then []
    else (if JsonTruthy(ds[0]) then [ds[0].text] else []) + Named(ds[1..])
  }

  /** `generateFilters`: the distinct lower-cased impacts and tags and the
      distinct disability names over violations, incomplete and passes,
      each sorted. `None` when a section is missing. */
  function Filters(r: Record, affected: seq<Rule>): (res: Option<FilterValues>)
    ensures res.Some? <==> HasMainSections(r)
    ensures res.Some? ==> (StrictlySorted(res.value.impacts) && StrictlySorted(res.value.tags)
      && StrictlySorted(res.value.disabilities))
    ensures res.Some? ==> var all := r.violations.value + r.incomplete.value + r.passes.value;
      && (forall y :: y in res.value.impacts <==> y in ImpactValues(all))
      && (forall y :: y in res.value.tags <==> y in TagValues(all))
      && (forall y :: y in res.value.disabilities <==> y in NamedDisabilities(all, affected))
  {
    if !HasMainSections(r) then None
    else
      var all := r.violations.value + r.incomplete.value + r.passes.value;
      Some(FilterValues(SortUnique(ImpactValues(all)), SortUnique(TagValues(all)),
        SortUnique(NamedDisabilities(all, affected))))
  }

  /** Filter values are lower case: an impact written `Serious` on one
      issue and `serious` on another is offered once. */
  lemma ImpactValuesLowerCase(issues: seq<Issue>, y: string)
    requires y in ImpactValues(issues)
    ensures ToLower(y) == y
  {
    var k :| 0 <= k < |issues| && ImpactIs(issues[k], y);
    LowerIdempotent(issues[k].impact.text);
  }

  lemma LowerIdempotent(s: string)
    ensures ToLower(ToLower(s)) == ToLower(s)
  {
  }
}

=== FILE: dedup.dfy ===
/** `deduplicate(strategy)` of buildReport.js as a whole: every record is
    read back with its id backfilled, the strategy picks the losing
    records, and every directory entry whose name starts with a loser's
    file id is deleted. File contents are given already parsed; the
    directory is the list of its entry names. */
module Dedup {
  import opened Wrappers
  import opened Strings
  import opened Records
  import opened PageNames
  import opened Deletion
  import BestMerge
  import ExactMerge

  /** The records as rewritten, the ids pushed to `toDelete`, and the
      directory entries left afterwards. */
  datatype Outcome = Outcome(records: seq<Record>, toDelete: seq<string>, remaining: seq<string>)

  /** The entries are the `.json` files of the listing. */
  predicate JsonEntries(es: seq<Entry>) {
    forall k :: 0 <= k < |es| ==> EndsWith(es[k].file, ".json")
  }

  function BackfillAll(es: seq<Entry>): (rs: seq<Record>)
    requires JsonEntries(es)
    ensures |rs| == |es|
    ensures forall k :: 0 <= k < |es| ==> rs[k] == Backfill(es[k])
  {
    seq(|es|, k requires 0 <= k < |es| => Backfill(es[k]))
  }

  /** The file ids of the entries at the given positions. */
  function IdsAt(es: seq<Entry>, positions: seq<nat>): (ids: seq<string>)
    requires JsonEntries(es)
    requires forall i :: 0 <= i < |positions| ==> positions[i] < |es|
    ensures |ids| == |positions|
    ensures forall i :: 0 <= i < |positions| ==> ids[i] == FileId(es[positions[i]].file)
  {
    seq(|positions|, i requires 0 <= i < |positions| => FileId(es[positions[i]].file))
  }

  /** Distinct positions of distinctly named files give distinct ids: no id
      is pushed twice. */
  lemma {:induction false} IdsDistinct(es: seq<Entry>, positions: seq<nat>)
    requires JsonEntries(es)
    requires forall k, k' :: 0 <= k < k' < |es| ==> es[k].file != es[k'].file
    requires forall i :: 0 <= i < |positions| ==> positions[i] < |es|
    requires forall i, i' :: 0 <= i < i' < |positions| ==> positions[i] != positions[i']
    ensures forall i, i' :: 0 <= i < i' < |IdsAt(es, positions)| ==> IdsAt(es, positions)[i] != IdsAt(es, positions)[i']
  {
  }

  /** `id` is the file id of one of the listed entries. */
  predicate IdOfEntry(es: seq<Entry>, id: string)
    requires JsonEntries(es)
  {
    exists j :: 0 <= j < |es| && id == FileId(es[j].file)
  }

  /** The whole step. `none` and every unrecognised strategy delete
      nothing; `best` fails where its comparison reads a missing section.
      Only ids of listed entries are pushed. */
  function Deduplicate(strategy: string, es: seq<Entry>, dir: seq<string>): (res: Result<Outcome, string>)
    requires JsonEntries(es)
    ensures res.Success? ==> res.value.records == BackfillAll(es)
    ensures res.Success? ==> res.value.remaining == Survivors(dir, res.value.toDelete)
    ensures res.Success? ==> forall i :: 0 <= i < |res.value.toDelete| ==> IdOfEntry(es, res.value.toDelete[i])
    ensures strategy != "exact" && strategy != "best" ==> res == Success(Outcome(BackfillAll(es), [], dir))
    ensures strategy == "exact" ==> res.Success?
    ensures strategy == "best" ==> (res.Success? <==> BestMerge.Fold(BackfillAll(es), |es|).Success?)
  {
    var rs := BackfillAll(es);
    if strategy == "exact" then
      var losers := ExactMerge.Fold(rs, |rs|).losers;
      var ids := IdsAt(es, losers);
      DeleteAllIsSurvivors(dir, ids);
      assert forall i :: 0 <= i < |ids| ==> IdOfEntry(es, ids[i]);
      Success(Outcome(rs, ids, DeleteAll(dir, ids)))
    else if strategy == "best" then
      match BestMerge.Fold(rs, |rs|)
      case Failure(e) => Failure(e)
      case Success(st) =>
        BestMerge.FoldInv(rs, |rs|);
        var ids := IdsAt(es, st.losers);
        DeleteAllIsSurvivors(dir, ids);
        assert forall i :: 0 <= i < |ids| ==> IdOfEntry(es, ids[i]);
        Success(Outcome(rs, ids, DeleteAll(dir, ids)))
    else
      SurvivorsOfNone(dir);
      Success(Outcome(rs, [], dir))
  }

  /** Under `best`, the file of a record that takes no part is deleted only
      when another loser's id is a prefix of its name: its own id is never
      pushed. */
  lemma {:induction false} BestSparesNonParticipants(es: seq<Entry>, dir: seq<string>, k: nat)
    requires JsonEntries(es) && k < |es|
    requires forall j, j' :: 0 <= j < j' < |es| ==> es[j].file != es[j'].file
    requires Deduplicate("best", es, dir).Success?
    requires !BestMerge.Eligible(Backfill(es[k]))
    ensures FileId(es[k].file) !in Deduplicate("best", es, dir).value.toDelete
  {
    var rs := BackfillAll(es);
    BestMerge.BestMergeOutcome(rs);
    var st := BestMerge.Fold(rs, |rs|).value;
    assert k !in st.losers;
    PushedIffLoser(es, st.losers, dir, k);
  }

  /** Under `exact` and `best`, no id is pushed to `toDelete` twice. */
  lemma {:induction false} NoIdPushedTwice(strategy: string, es: seq<Entry>, dir: seq<string>)
    requires JsonEntries(es)
    requires forall j, j' :: 0 <= j < j' < |es| ==> es[j].file != es[j'].file
    requires Deduplicate(strategy, es, dir).Success?
    ensures var ids := Deduplicate(strategy, es, dir).value.toDelete;
      forall i, i' :: 0 <= i < i' < |ids| ==> ids[i] != ids[i']
  {
    var rs := BackfillAll(es);
    if strategy == "exact" {
      IdsDistinct(es, ExactMerge.Fold(rs, |rs|).losers);
    } else if strategy == "best" {
      BestMerge.FoldInv(rs, |rs|);
      IdsDistinct(es, BestMerge.Fold(rs, |rs|).value.losers);
    }
  }

  /** With distinctly named files, an entry's id is pushed exactly when its
      position is among the losers, and then its file is gone. */
  lemma {:induction false} PushedIffLoser(es: seq<Entry>, positions: seq<nat>, dir: seq<string>, k: nat)
    requires JsonEntries(es) && k < |es|
    requires forall j, j' :: 0 <= j < j' < |es| ==> es[j].file != es[j'].file
    requires forall i :: 0 <= i < |positions| ==> positions[i] < |es|
    ensures FileId(es[k].file) in IdsAt(es, positions) <==> k in positions
    ensures k in positions ==> es[k].file !in DeleteAll(dir, IdsAt(es, positions))
  {
    var ids := IdsAt(es, positions);
    if FileId(es[k].file) in ids {
      var i :| 0 <= i < |ids| && ids[i] == FileId(es[k].file);
      FileIdInjective(es[positions[i]].file, es[k].file);
    }
    if k in positions {
      var i :| 0 <= i < |positions| && positions[i] == k;
      assert ids[i] == FileId(es[k].file);
      ArtifactsRemoved(dir, ids, i, ".json");
    }
  }

  /** Under `exact`, a record's id is pushed exactly when an earlier record
      has the same url and target lists, and such a repeat loses its file. */
  lemma {:induction false} ExactDeletesRepeats(es: seq<Entry>, dir: seq<string>, k: nat)
    requires JsonEntries(es) && k < |es|
    requires forall j, j' :: 0 <= j < j' < |es| ==> es[j].file != es[j'].file
    ensures var rs := BackfillAll(es);
      var out := Deduplicate("exact", es, dir).value;
      && (FileId(es[k].file) in out.toDelete <==> ExactMerge.SeenBefore(rs, k, ExactMerge.KeyOf(rs[k])))
      && (ExactMerge.SeenBefore(rs, k, ExactMerge.KeyOf(rs[k])) ==> es[k].file !in out.remaining)
  {
    var rs := BackfillAll(es);
    var losers := ExactMerge.Fold(rs, |rs|).losers;
    ExactMerge.FoldSpec(rs, |rs|);
    PushedIffLoser(es, losers, dir, k);
  }

  /** Under `best`, a record that takes part has its id pushed exactly when
      it is not its group's survivor, and then its file is gone. */
  lemma {:induction false} BestDeletesNonSurvivors(es: seq<Entry>, dir: seq<string>, k: nat)
    requires JsonEntries(es) && k < |es|
    requires forall j, j' :: 0 <= j < j' < |es| ==> es[j].file != es[j'].file
    requires Deduplicate("best", es, dir).Success?
    requires BestMerge.Eligible(BackfillAll(es)[k])
    ensures var rs := BackfillAll(es);
      var st := BestMerge.Fold(rs, |rs|).value;
      var out := Deduplicate("best", es, dir).value;
      && rs[k].path in st.best
      && (FileId(es[k].file) in out.toDelete <==> k != st.best[rs[k].path])
      && (k != st.best[rs[k].path] ==> es[k].file !in out.remaining)
  {
    var rs := BackfillAll(es);
    BestMerge.BestMergeOutcome(rs);
    var st := BestMerge.Fold(rs, |rs|).value;
    PushedIffLoser(es, st.losers, dir, k);
  }

  /** When every listed `.json` name has the same length, as the names the
      decorator writes do, an id that is not pushed is never prefixed by one
      that is: every entry starting with the id of a record that is not
      pushed stays in the directory. */
  lemma {:induction false} KeptFilesRemain(strategy: string, es: seq<Entry>, dir: seq<string>, k: nat, name: string)
    requires JsonEntries(es) && k < |es|
    requires forall j, j' :: 0 <= j < |es| && 0 <= j' < |es| ==> |es[j].file| == |es[j'].file|
    requires Deduplicate(strategy, es, dir).Success?
    requires FileId(es[k].file) !in Deduplicate(strategy, es, dir).value.toDelete
    requires name in dir && StartsWith(name, FileId(es[k].file))
    ensures name in Deduplicate(strategy, es, dir).value.remaining
  {
    var ids := Deduplicate(strategy, es, dir).value.toDelete;
    var b := FileId(es[k].file);
    forall i | 0 <= i < |ids| ensures !StartsWith(name, ids[i]) {
      var j :| 0 <= j < |es| && ids[i] == FileId(es[j].file);
      assert |ids[i]| == |b|;
      assert name[..|b|] == b;
    }
  }

  /** Under `best`, with equally long names, the files of every record the
      merge keeps, those that take no part and the survivors, stay in the
      directory. */
  lemma {:induction false} BestKeptFilesRemain(es: seq<Entry>, dir: seq<string>, k: nat, name: string)
    requires JsonEntries(es) && k < |es|
    requires forall j, j' :: 0 <= j < j' < |es| ==> es[j].file != es[j'].file
    requires forall j, j' :: 0 <= j < |es| && 0 <= j' < |es| ==> |es[j].file| == |es[j'].file|
    requires Deduplicate("best", es, dir).Success?
    requires BestMerge.Keeps(BackfillAll(es), BestMerge.Fold(BackfillAll(es), |es|).value, k)
    requires name in dir && StartsWith(name, FileId(es[k].file))
    ensures name in Deduplicate("best", es, dir).value.remaining
  {
    var rs := BackfillAll(es);
    BestMerge.BestMergeOutcome(rs);
    var st := BestMerge.Fold(rs, |rs|).value;
    assert k !in st.losers;
    PushedIffLoser(es, st.losers, dir, k);
    KeptFilesRemain("best", es, dir, k, name);
  }
}

=== FILE: deletion.dfy ===
/** The deletion step of `deduplicate` in buildReport.js: for every losing
    id, in order, the pages directory is listed again and every entry whose
    name starts with that id is unlinked. The directory is a sequence of
    file names; deleting returns what is left. */
module Deletion {
  import opened Strings

  /** Some id of `ids` is a prefix of `name`. */
  predicate PrefixedByAny(name: string, ids: seq<string>) {
    exists k :: 0 <= k < |ids| && StartsWith(name, ids[k])
  }

  /** One losing id: the entries it does not prefix, in listing order. */
  function RemovePrefixed(dir: seq<string>, id: string): (r: seq<string>)
    ensures forall n :: n in r <==> n in dir && !StartsWith(n, id)
  {
    if dir == [] then []
    else (if StartsWith(dir[0], id) then [] else [dir[0]]) + RemovePrefixed(dir[1..], id)
  }

  /** The loop over `toDelete`, each id working on what the previous ones left. */
  function DeleteAll(dir: seq<string>, ids: seq<string>): seq<string>
    decreases ids
  {
    if ids == [] then dir else DeleteAll(RemovePrefixed(dir, ids[0]), ids[1..])
  }

  /** Reference definition: one pass that keeps exactly the entries no
      losing id is a prefix of. */
  function Survivors(dir: seq<string>, ids: seq<string>): (r: seq<string>)
    ensures forall n :: n in r <==> n in dir && !PrefixedByAny(n, ids)
  {
    if dir == [] then []
    else (if PrefixedByAny(dir[0], ids) then [] else [dir[0]]) + Survivors(dir[1..], ids)
  }

  lemma PrefixedByCons(n: string, id: string, rest: seq<string>)
    ensures PrefixedByAny(n, [id] + rest) <==> StartsWith(n, id) || PrefixedByAny(n, rest)
  {
    var ids := [id] + rest;
    if PrefixedByAny(n, rest) {
      var k :| 0 <= k < |rest| && StartsWith(n, rest[k]);
      assert ids[k + 1] == rest[k];
    }
    if PrefixedByAny(n, ids) {
      var k :| 0 <= k < |ids| && StartsWith(n, ids[k]);
      if k > 0 { assert rest[k - 1] == ids[k]; }
    }
    if StartsWith(n, id) { assert ids[0] == id; }
  }

  lemma SurvivorsCons(x: string, xs: seq<string>, ids: seq<string>)
    ensures Survivors([x] + xs, ids) == (if PrefixedByAny(x, ids) then [] else [x]) + Survivors(xs, ids)
  {
    assert ([x] + xs)[1..] == xs;
  }

  lemma {:induction false} SurvivorsOfRemoved(dir: seq<string>, id: string, rest: seq<string>)
    ensures Survivors(RemovePrefixed(dir, id), rest) == Survivors(dir, [id] + rest)
  {
    if dir != [] {
      var ids := [id] + rest;
      var tail := RemovePrefixed(dir[1..], id);
      SurvivorsOfRemoved(dir[1..], id, rest);
      PrefixedByCons(dir[0], id, rest);
      if StartsWith(dir[0], id) {
        assert RemovePrefixed(dir, id) == tail;
      } else {
        assert RemovePrefixed(dir, id) == [dir[0]] + tail;
        SurvivorsCons(dir[0], tail, rest);
      }
    }
  }

  /** Deleting loser by loser, re-listing the directory each time, leaves
      the same entries as the one-pass filter. */
  lemma {:induction false} DeleteAllIsSurvivors(dir: seq<string>, ids: seq<string>)
    ensures DeleteAll(dir, ids) == Survivors(dir, ids)
    decreases ids
  {
    if ids == [] {
      SurvivorsOfNone(dir);
    } else {
      DeleteAllIsSurvivors(RemovePrefixed(dir, ids[0]), ids[1..]);
      SurvivorsOfRemoved(dir, ids[0], ids[1..]);
      assert [ids[0]] + ids[1..] == ids;
    }
  }

  lemma {:induction false} SurvivorsOfNone(dir: seq<string>)
    ensures Survivors(dir, []) == dir
  {
    if dir != [] {
      SurvivorsOfNone(dir[1..]);
      assert [dir[0]] + dir[1..] == dir;
    }
  }

  /** Every entry whose name starts with a losing id is removed: the
      record's own `.json` and its screenshots alike. */
  lemma ArtifactsRemoved(dir: seq<string>, ids: seq<string>, k: nat, suffix: string)
    requires k < |ids|
    ensures ids[k] + suffix !in DeleteAll(dir, ids)
  {
    DeleteAllIsSurvivors(dir, ids);
    assert (ids[k] + suffix)[..|ids[k]|] == ids[k];
  }

  /** The prefix test reaches beyond a loser's own files: when `a` loses,
      the record `ab` is deleted with it. */
  lemma LoserPrefixReachesOthers()
    ensures DeleteAll(["a.json", "ab.json", "b.json"], ["a"]) == ["b.json"]
  {
    var dir := ["a.json", "ab.json", "b.json"];
    DeleteAllIsSurvivors(dir, ["a"]);
    assert StartsWith(dir[0], "a") && StartsWith(dir[1], "a");
    assert dir[2][..1] == "b";
    assert PrefixedByAny(dir[0], ["a"]) && PrefixedByAny(dir[1], ["a"]);
    assert !PrefixedByAny(dir[2], ["a"]);
    assert dir[1..][1..] == [dir[2]];
  }

  /** An empty losing id (from a file called exactly `.json`) empties the
      whole directory. */
  lemma EmptyIdRemovesEverything(dir: seq<string>)
    ensures DeleteAll(dir, [""]) == []
  {
    DeleteAllIsSurvivors(dir, [""]);
    var r := Survivors(dir, [""]);
    if r != [] {
      assert StartsWith(r[0], "");
      assert PrefixedByAny(r[0], [""]);
      assert false;
    }
  }
}

=== FILE: envconfig.dfy ===
/** `loadEnvConfig` of axeDecorator.ts: the `.env.a11y` line parser and
    the defaulting of the decorator's configuration. Reading the file is
    not modelled; its content is a parameter (`None` when it is missing). */
module EnvConfig {
  import opened Wrappers
  import opened Strings

  datatype Config = Config(scan: bool, outputDir: string, screenshots: bool, tags: seq<string>)

  const DefaultOutputDir: string := "axe-playwright-report" + "/pages"

  const DefaultConfig: Config := Config(true, DefaultOutputDir, false, [])

  predicate IsQuote(c: char) {
    c == '\'' || c == '"'
  }

  /** `.replace(/^['"]|['"]$/g, "")`: one leading and one trailing quote,
      of either kind, are removed. */
  function StripQuotes(v: string): (r: string)
    ensures |r| <= |v| && |v| - 2 <= |r|
    ensures (v == [] || (!IsQuote(v[0]) && !IsQuote(v[|v| - 1]))) ==> r == v
  {
    var a := if |v| > 0 && IsQuote(v[0]) then v[1..] else v;
    if |a| > 0 && IsQuote(a[|a| - 1]) then a[..|a| - 1] else a
  }

  /** A value wrapped in a pair of quotes, of either kind and not
      necessarily matching, comes back unwrapped, whatever it holds. */
  lemma StripQuotesWrapped(open: char, s: string, close: char)
    requires IsQuote(open) && IsQuote(close)
    ensures StripQuotes([open] + s + [close]) == s
  {
    var v := [open] + s + [close];
    assert v[1..] == s + [close];
  }

  /** A lone leading quote is removed when the value does not also end in
      one; a lone quote character becomes the empty string. */
  lemma StripQuotesLeading(open: char, s: string)
    requires IsQuote(open)
    requires s == [] || !IsQuote(s[|s| - 1])
    ensures StripQuotes([open] + s) == s
  {
    assert ([open] + s)[1..] == s;
  }

  /** A lone trailing quote is removed when the value does not also start
      with one. */
  lemma StripQuotesTrailing(s: string, close: char)
    requires IsQuote(close)
    requires s == [] || !IsQuote(s[0])
    ensures StripQuotes(s + [close]) == s
  {
    var v := s + [close];
    if s == [] {
      assert v == [close];
    } else {
      assert v[0] == s[0];
      assert v[..|v| - 1] == s;
    }
  }

  /** One line of the file: the variable it sets, if any. The key is the
      trimmed line up to the first `=` and is not trimmed itself; the value
      is the rest of the line, trimmed and unquoted. */
  function ParseLine(line: string): Option<(string, string)>
  {
    var t := Trim(line);
    if t == "" || t[0] == '#' then None
    else
      var parts := Split(t, '=');
      if parts[0] == "" || |parts| == 1 then None
      else Some((parts[0], StripQuotes(Trim(Join(parts[1..], '=')))))
  }

  /** A line sets a variable exactly when, once trimmed, it is non-empty,
      does not start with `#`, and has an `=` after a non-empty key. */
  lemma ParseLineSkips(line: string)
    ensures var t := Trim(line);
      ParseLine(line).None? <==> (t == "" || t[0] == '#' || '=' !in t || t[0] == '=')
  {
    var t := Trim(line);
    if t != "" && t[0] != '#' {
      if '=' in t {
        var i :| 0 <= i < |t| && t[i] == '=' && '=' !in t[..i] by {
          FirstOccurrence(t, '=');
        }
        SplitAt(t, '=', i);
        if i == 0 { assert Split(t, '=')[0] == ""; }
      } else {
        SplitNoSep(t, '=');
      }
    }
  }

  lemma FirstOccurrence(s: string, c: char)
    requires c in s
    ensures exists i :: 0 <= i < |s| && s[i] == c && c !in s[..i]
  {
    if s[0] != c {
      FirstOccurrence(s[1..], c);
      var i :| 0 <= i < |s[1..]| && s[1..][i] == c && c !in s[1..][..i];
      assert s[..i + 1] == [s[0]] + s[1..][..i];
      assert s[i + 1] == c && c !in s[..i + 1];
    } else {
      assert s[..0] == [];
      assert s[0] == c && c !in s[..0];
    }
  }

  /** What a setting line yields: the key before the first `=`, and the
      rest of the line trimmed with one quote stripped from each end. */
  lemma ParseLineSets(line: string, i: nat)
    requires var t := Trim(line);
      0 < i < |t| && t[i] == '=' && '=' !in t[..i] && t[0] != '#'
    ensures var t := Trim(line);
      ParseLine(line) == Some((t[..i], StripQuotes(Trim(t[i + 1..]))))
  {
    var t := Trim(line);
    SplitAt(t, '=', i);
    JoinSplit(t[i + 1..], '=');
    assert Split(t, '=')[1..] == Split(t[i + 1..], '=');
  }

  /** A parsed line: the variable it sets, if any. */
  type Setting = Option<(string, string)>

  /** The environment after one more setting. */
  function Assign(env: map<string, string>, p: Setting): map<string, string> {
    match p
    case None => env
    case Some(kv) => env[kv.0 := kv.1]
  }

  /** The settings applied in order, later ones over earlier ones. */
  function AssignAll(ps: seq<Setting>): map<string, string>
  {
    if ps == [] then map[] else Assign(AssignAll(ps[..|ps| - 1]), ps[|ps| - 1])
  }

  predicate Assigns(p: Setting, key: string) {
    p.Some? && p.value.0 == key
  }

  /** A key is defined iff some setting assigns it. */
  lemma {:induction false} AssignAllDefined(ps: seq<Setting>, key: string)
    ensures key in AssignAll(ps) <==> exists j :: 0 <= j < |ps| && Assigns(ps[j], key)
  {
    if ps != [] {
      var init := ps[..|ps| - 1];
      AssignAllDefined(init, key);
      assert forall j :: 0 <= j < |init| ==> init[j] == ps[j];
    }
  }

  /** The value of a key is the one of the last setting that assigns it. */
  lemma {:induction false} AssignAllLast(ps: seq<Setting>, j: nat, key: string)
    requires j < |ps| && Assigns(ps[j], key)
    requires forall j' :: j < j' < |ps| ==> !Assigns(ps[j'], key)
    ensures key in AssignAll(ps) && AssignAll(ps)[key] == ps[j].value.1
  {
    var init := ps[..|ps| - 1];
    if j < |ps| - 1 {
      assert !Assigns(ps[|ps| - 1], key);
      assert forall j' :: j < j' < |init| ==> init[j'] == ps[j'];
      AssignAllLast(init, j, key);
    }
  }

  /** Every line parsed. */
  function Settings(lines: seq<string>): (ps: seq<Setting>)
    ensures |ps| == |lines|
    ensures forall k :: 0 <= k < |lines| ==> ps[k] == ParseLine(lines[k])
  {
    seq(|lines|, k requires 0 <= k < |lines| => ParseLine(lines[k]))
  }

  /** The variables the lines set, processed in order. */
  function ParseLines(lines: seq<string>): map<string, string>
  {
    AssignAll(Settings(lines))
  }

  /** Line `j` sets `key`. */
  predicate SetsKey(lines: seq<string>, j: nat, key: string)
    requires j < |lines|
  {
    Assigns(ParseLine(lines[j]), key)
  }

  /** Line `j` sets `key` and no later line does. */
  predicate LastSetting(lines: seq<string>, j: nat, key: string)
    requires j < |lines|
  {
    SetsKey(lines, j, key) && forall j' :: j < j' < |lines| ==> !SetsKey(lines, j', key)
  }

  /** A key is defined iff some line sets it. */
  lemma DefinedIffSet(lines: seq<string>, key: string)
    ensures key in ParseLines(lines) <==> exists j :: 0 <= j < |lines| && SetsKey(lines, j, key)
  {
    var ps := Settings(lines);
    AssignAllDefined(ps, key);
    assert forall j :: 0 <= j < |lines| ==> (SetsKey(lines, j, key) <==> Assigns(ps[j], key));
  }

  /** The value of a key comes from the last line that sets it: later
      lines override earlier ones. */
  lemma LaterLinesOverride(lines: seq<string>, j: nat, key: string)
    requires j < |lines| && LastSetting(lines, j, key)
    ensures key in ParseLines(lines)
    ensures ParseLines(lines)[key] == ParseLine(lines[j]).value.1
  {
    var ps := Settings(lines);
    assert forall j' :: j < j' < |ps| ==> !Assigns(ps[j'], key) by {
      forall j' | j < j' < |ps| ensures !Assigns(ps[j'], key) {
        assert !SetsKey(lines, j', key);
      }
    }
    AssignAllLast(ps, j, key);
  }

  /** The whole file: `content.split("\n")` parsed line by line. */
  function ParseEnv(content: string): map<string, string> {
    ParseLines(Split(content, '\n'))
  }

  /** `env[key]` is truthy. */
  predicate IsSet(env: map<string, string>, key: string) {
    key in env && env[key] != ""
  }

  /** `value.toUpperCase() === "ON"` */
  predicate IsOn(value: string) {
    ToUpper(value) == "ON"
  }

  /** The switch values that turn a flag on are exactly the four spellings
      of "on". */
  lemma IsOnSpellings(value: string)
    ensures IsOn(value) <==> value in {"on", "On", "oN", "ON"}
  {
    if IsOn(value) {
      assert |value| == 2;
      assert UpperChar(value[0]) == 'O' && UpperChar(value[1]) == 'N';
      assert value == [value[0], value[1]];
    }
    if value in {"on", "On", "oN", "ON"} {
      assert ToUpper(value) == [UpperChar(value[0]), UpperChar(value[1])];
    }
  }

  function TrimAll(parts: seq<string>): (r: seq<string>)
    ensures |r| == |parts|
    ensures forall k :: 0 <= k < |parts| ==> r[k] == Trim(parts[k])
  {
    seq(|parts|, k requires 0 <= k < |parts| => Trim(parts[k]))
  }

  /** The comma-separated `TAGS` list: split on commas, each piece trimmed,
      empty pieces dropped. */
  function SplitTags(value: string): (r: seq<string>)
    ensures forall t :: t in r ==> t != "" && Trim(t) == t && ',' !in t
  {
    var parts := Split(value, ',');
    var r := DropEmpty(TrimAll(parts));
    assert forall t :: t in r ==> exists k :: 0 <= k < |parts| && t == Trim(parts[k]);
    r
  }

  /** Writing a tag list as `a,b,c` and reading it back gives the list. */
  lemma {:induction false} SplitTagsJoin(tags: seq<string>)
    requires tags != []
    requires forall k :: 0 <= k < |tags| ==> tags[k] != "" && ',' !in tags[k]
    requires forall k :: 0 <= k < |tags| ==> !IsJsSpace(tags[k][0]) && !IsJsSpace(tags[k][|tags[k]| - 1])
    ensures SplitTags(Join(tags, ',')) == tags
  {
    SplitJoin(tags, ',');
    assert TrimAll(tags) == tags;
    DropEmptyKeepsAll(tags);
  }

  /** `${OUTPUT_DIR}/pages`, or the default directory. */
  function OutputDir(env: map<string, string>): (dir: string)
    ensures EndsWith(dir, "/pages")
    ensures dir == if IsSet(env, "OUTPUT_DIR") then env["OUTPUT_DIR"] + "/pages" else DefaultOutputDir
  {
    var base := if IsSet(env, "OUTPUT_DIR") then env["OUTPUT_DIR"] else "axe-playwright-report";
    var dir := base + "/pages";
    assert dir[|dir| - 6..] == "/pages";
    dir
  }

  /** The decorator's configuration: a missing file or an unset/empty
      variable falls back to the default; the switches are on iff their
      value upper-cases to `ON`. */
  function LoadEnvConfig(content: Option<string>): (r: Config)
    ensures EndsWith(r.outputDir, "/pages")
    ensures forall t :: t in r.tags ==> t != "" && Trim(t) == t
    ensures content.None? ==> r == DefaultConfig
    ensures content.Some? ==>
      var env := ParseEnv(content.value);
      && (r.scan <==> !IsSet(env, "SCAN") || IsOn(env["SCAN"]))
      && (r.screenshots <==> IsSet(env, "SCREENSHOT") && IsOn(env["SCREENSHOT"]))
      && (r.outputDir == if IsSet(env, "OUTPUT_DIR") then env["OUTPUT_DIR"] + "/pages" else DefaultOutputDir)
      && (!IsSet(env, "TAGS") ==> r.tags == [])
      && (IsSet(env, "TAGS") ==> r.tags == SplitTags(env["TAGS"]))
  {
    if content.None? then DefaultConfig
    else
      var env := ParseEnv(content.value);
      Config(
        if IsSet(env, "SCAN") then IsOn(env["SCAN"]) else DefaultConfig.scan,
        OutputDir(env),
        if IsSet(env, "SCREENSHOT") then IsOn(env["SCREENSHOT"]) else DefaultConfig.screenshots,
        if IsSet(env, "TAGS") then SplitTags(env["TAGS"]) else DefaultConfig.tags)
  }

  /** A file that sets no variable behaves like a missing one. */
  lemma NoSettingsGiveDefaults(content: string)
    requires ParseEnv(content) == map[]
    ensures LoadEnvConfig(Some(content)) == LoadEnvConfig(None)
  {
    var env := ParseEnv(content);
    assert !IsSet(env, "SCAN") && !IsSet(env, "SCREENSHOT") && !IsSet(env, "OUTPUT_DIR") && !IsSet(env, "TAGS");
  }

  lemma EmptyFileSetsNothing()
    ensures ParseEnv("") == map[]
  {
    assert Split("", '\n') == [""];
    assert Trim("") == "";
    assert ParseLine("") == None;
    var ps := Settings([""]);
    assert ps == [None] && ps[..0] == [];
  }

  /** An empty file sets nothing, so it behaves like a missing one. */
  lemma EmptyFileGivesDefaults()
    ensures LoadEnvConfig(Some("")) == DefaultConfig
  {
    EmptyFileSetsNothing();
    NoSettingsGiveDefaults("");
  }
}

=== FILE: escape.dfy ===
/** `escapeHTML` and `getAxeVersion` of buildReport.js. */
module Escape {
  import opened Wrappers
  import opened Strings

  /** `s.replace(/c/g, rep)` for a single character `c`. */
  function ReplaceAll(s: string, c: char, rep: string): string
  {
    if s == [] then []
    else (if s[0] == c then rep else [s[0]]) + ReplaceAll(s[1..], c, rep)
  }

  /** A string without the character is left as it is. */
  lemma {:induction false} ReplaceAllAbsent(s: string, c: char, rep: string)
    requires c !in s
    ensures ReplaceAll(s, c, rep) == s
  {
    if s != [] {
      ReplaceAllAbsent(s[1..], c, rep);
      assert s == [s[0]] + s[1..];
    }
  }

  lemma {:induction false} ReplaceAllAppend(a: string, b: string, c: char, rep: string)
    ensures ReplaceAll(a + b, c, rep) == ReplaceAll(a, c, rep) + ReplaceAll(b, c, rep)
  {
    if a == [] {
      assert a + b == b;
    } else {
      var h := if a[0] == c then rep else [a[0]];
      assert (a + b)[0] == a[0];
      assert (a + b)[1..] == a[1..] + b;
      calc {
        ReplaceAll(a + b, c, rep);
        h + ReplaceAll(a[1..] + b, c, rep);
        { ReplaceAllAppend(a[1..], b, c, rep); }
        h + (ReplaceAll(a[1..], c, rep) + ReplaceAll(b, c, rep));
        (h + ReplaceAll(a[1..], c, rep)) + ReplaceAll(b, c, rep);
      }
    }
  }

  /** The five passes, `&` first, in the order the source applies them. */
  function EscapePasses(s: string): string {
    var s1 := ReplaceAll(s, '&', "&amp;");
    var s2 := ReplaceAll(s1, '<', "&lt;");
    var s3 := ReplaceAll(s2, '>', "&gt;");
    var s4 := ReplaceAll(s3, '"', "&quot;");
    ReplaceAll(s4, '\'', "&#039;")
  }

  /** `escapeHTML(html)`: `null` and `undefined` (here `None`) give `""`. */
  function EscapeHtml(html: Option<string>): (r: string)
    ensures html.None? ==> r == ""
  {
    EscapePasses(html.GetOr(""))
  }

  predicate IsSpecial(c: char) {
    c == '&' || c == '<' || c == '>' || c == '"' || c == '\''
  }

  /** Reference definition: each character replaced by its entity in a
      single left-to-right pass. */
  function EscapeChar(c: char): string {
    if c == '&' then "&amp;"
    else if c == '<' then "&lt;"
    else if c == '>' then "&gt;"
    else if c == '"' then "&quot;"
    else if c == '\'' then "&#039;"
    else [c]
  }

  function EscapeOnePass(s: string): (r: string)
    ensures forall k :: 0 <= k < |r| ==> r[k] != '<' && r[k] != '>' && r[k] != '"' && r[k] != '\''
  {
    if s == [] then [] else EscapeChar(s[0]) + EscapeOnePass(s[1..])
  }

  lemma EscapePassesAppend(a: string, b: string)
    ensures EscapePasses(a + b) == EscapePasses(a) + EscapePasses(b)
  {
    var a1, b1 := ReplaceAll(a, '&', "&amp;"), ReplaceAll(b, '&', "&amp;");
    ReplaceAllAppend(a, b, '&', "&amp;");
    var a2, b2 := ReplaceAll(a1, '<', "&lt;"), ReplaceAll(b1, '<', "&lt;");
    ReplaceAllAppend(a1, b1, '<', "&lt;");
    var a3, b3 := ReplaceAll(a2, '>', "&gt;"), ReplaceAll(b2, '>', "&gt;");
    ReplaceAllAppend(a2, b2, '>', "&gt;");
    var a4, b4 := ReplaceAll(a3, '"', "&quot;"), ReplaceAll(b3, '"', "&quot;");
    ReplaceAllAppend(a3, b3, '"', "&quot;");
    ReplaceAllAppend(a4, b4, '\'', "&#039;");
  }

  lemma ReplaceAllChar(c: char, d: char, rep: string)
    ensures ReplaceAll([c], d, rep) == if c == d then rep else [c]
  {
    assert [c][1..] == [];
  }

  /** On one character the five passes give that character's entity:
      the entities introduced by later passes hold no `&` that the first
      pass could have touched, and no character a later pass replaces. */
  lemma EscapePassesChar(c: char)
    ensures EscapePasses([c]) == EscapeChar(c)
  {
    if c == '&' {
      EscapeAmp();
    } else if c == '<' {
      EscapeLt();
    } else if c == '>' {
      EscapeGt();
    } else if c == '"' {
      EscapeQuot();
    } else if c == '\'' {
      EscapeApos();
    } else {
      PlainCharPasses(c);
    }
  }

  lemma EscapeAmp()
    ensures EscapePasses("&") == "&amp;"
  {
    assert ReplaceAll("&", '&', "&amp;") == "&amp;";
    assert ReplaceAll("&amp;", '<', "&lt;") == "&amp;";
    assert ReplaceAll("&amp;", '>', "&gt;") == "&amp;";
    assert ReplaceAll("&amp;", '"', "&quot;") == "&amp;";
    assert ReplaceAll("&amp;", '\'', "&#039;") == "&amp;";
  }

  lemma EscapeLt()
    ensures EscapePasses("<") == "&lt;"
  {
    assert ReplaceAll("<", '&', "&amp;") == "<";
    assert ReplaceAll("<", '<', "&lt;") == "&lt;";
    assert ReplaceAll("&lt;", '>', "&gt;") == "&lt;";
    assert ReplaceAll("&lt;", '"', "&quot;") == "&lt;";
    assert ReplaceAll("&lt;", '\'', "&#039;") == "&lt;";
  }

  lemma EscapeGt()
    ensures EscapePasses(">") == "&gt;"
  {
    assert ReplaceAll(">", '&', "&amp;") == ">";
    assert ReplaceAll(">", '<', "&lt;") == ">";
    assert ReplaceAll(">", '>', "&gt;") == "&gt;";
    assert ReplaceAll("&gt;", '"', "&quot;") == "&gt;";
    assert ReplaceAll("&gt;", '\'', "&#039;") == "&gt;";
  }

  lemma EscapeQuot()
    ensures EscapePasses("\"") == "&quot;"
  {
    assert ReplaceAll("\"", '&', "&amp;") == "\"";
    assert ReplaceAll("\"", '<', "&lt;") == "\"";
    assert ReplaceAll("\"", '>', "&gt;") == "\"";
    assert ReplaceAll("\"", '"', "&quot;") == "&quot;";
    assert ReplaceAll("&quot;", '\'', "&#039;") == "&quot;";
  }

  lemma EscapeApos()
    ensures EscapePasses("'") == "&#039;"
  {
    assert ReplaceAll("'", '&', "&amp;") == "'";
    assert ReplaceAll("'", '<', "&lt;") == "'";
    assert ReplaceAll("'", '>', "&gt;") == "'";
    assert ReplaceAll("'", '"', "&quot;") == "'";
    assert ReplaceAll("'", '\'', "&#039;") == "&#039;";
  }

  lemma PlainCharPasses(c: char)
    requires !IsSpecial(c)
    ensures EscapePasses([c]) == [c]
  {
    ReplaceAllChar(c, '&', "&amp;");
    ReplaceAllChar(c, '<', "&lt;");
    ReplaceAllChar(c, '>', "&gt;");
    ReplaceAllChar(c, '"', "&quot;");
    ReplaceAllChar(c, '\'', "&#039;");
  }

  /** The five sequential passes equal the one-pass escape, so nothing is
      escaped twice: `&` is handled before any entity exists. */
  lemma {:induction false} EscapePassesIsOnePass(s: string)
    ensures EscapePasses(s) == EscapeOnePass(s)
  {
    if s != [] {
      EscapePassesIsOnePass(s[1..]);
      assert s == [s[0]] + s[1..];
      EscapePassesAppend([s[0]], s[1..]);
      EscapePassesChar(s[0]);
    }
  }

  /** No raw `<`, `>`, `"` or `'` survives escaping. */
  lemma EscapedHasNoMarkup(html: Option<string>)
    ensures var r := EscapeHtml(html);
      forall k :: 0 <= k < |r| ==> r[k] != '<' && r[k] != '>' && r[k] != '"' && r[k] != '\''
  {
    EscapePassesIsOnePass(html.GetOr(""));
  }

  /** A string with none of the five special characters is returned as is. */
  lemma {:induction false} PlainTextUnchanged(s: string)
    requires forall k :: 0 <= k < |s| ==> !IsSpecial(s[k])
    ensures EscapeHtml(Some(s)) == s
  {
    EscapePassesIsOnePass(s);
    PlainOnePass(s);
  }

  lemma {:induction false} PlainOnePass(s: string)
    requires forall k :: 0 <= k < |s| ==> !IsSpecial(s[k])
    ensures EscapeOnePass(s) == s
  {
    if s != [] {
      PlainOnePass(s[1..]);
      assert s == [s[0]] + s[1..];
    }
  }

  /** Inverse of the escape: each of the five entities back to its character. */
  function Unescape(s: string): string
  {
    if s == [] then []
    else if StartsWith(s, "&amp;") then "&" + Unescape(s[5..])
    else if StartsWith(s, "&lt;") then "<" + Unescape(s[4..])
    else if StartsWith(s, "&gt;") then ">" + Unescape(s[4..])
    else if StartsWith(s, "&quot;") then "\"" + Unescape(s[6..])
    else if StartsWith(s, "&#039;") then "'" + Unescape(s[6..])
    else [s[0]] + Unescape(s[1..])
  }

  lemma UnescapeEntity(c: char, rest: string)
    ensures Unescape(EscapeChar(c) + rest) == [c] + Unescape(rest)
  {
    if !IsSpecial(c) {
      UnescapePlain(c, rest);
    } else if c == '&' {
      UnescapeAt("&amp;", rest);
    } else if c == '<' {
      UnescapeAt("&lt;", rest);
    } else if c == '>' {
      UnescapeAt("&gt;", rest);
    } else if c == '"' {
      UnescapeAt("&quot;", rest);
    } else {
      UnescapeAt("&#039;", rest);
    }
  }

  lemma UnescapePlain(c: char, rest: string)
    requires !IsSpecial(c)
    ensures Unescape([c] + rest) == [c] + Unescape(rest)
  {
    var s := [c] + rest;
    assert s[0] == c && s[1..] == rest;
    assert s[0] != '&';
    assert !StartsWith(s, "&amp;") && !StartsWith(s, "&lt;") && !StartsWith(s, "&gt;");
    assert !StartsWith(s, "&quot;") && !StartsWith(s, "&#039;");
  }

  /** An entity at the front is decoded and the rest follows. */
  lemma UnescapeAt(e: string, rest: string)
    requires e in {"&amp;", "&lt;", "&gt;", "&quot;", "&#039;"}
    ensures Unescape(e + rest) == Decoded(e) + Unescape(rest)
  {
    var s := e + rest;
    assert s[..|e|] == e && s[|e|..] == rest;
    assert StartsWith(s, e);
    if e != "&amp;" {
      assert s[1] == e[1];
      assert !StartsWith(s, "&amp;");
    }
    if e == "&quot;" || e == "&#039;" {
      assert !StartsWith(s, "&lt;") && !StartsWith(s, "&gt;");
    }
    if e == "&#039;" {
      assert !StartsWith(s, "&quot;");
    }
  }

  /** The character an entity stands for. */
  function Decoded(e: string): string {
    if e == "&amp;" then "&"
    else if e == "&lt;" then "<"
    else if e == "&gt;" then ">"
    else if e == "&quot;" then "\""
    else "'"
  }

  /** Escaping loses nothing: unescaping gives the text back. */
  lemma {:induction false} EscapeRoundTrip(s: string)
    ensures Unescape(EscapeHtml(Some(s))) == s
  {
    EscapePassesIsOnePass(s);
    OnePassRoundTrip(s);
  }

  lemma {:induction false} OnePassRoundTrip(s: string)
    ensures Unescape(EscapeOnePass(s)) == s
  {
    if s != [] {
      OnePassRoundTrip(s[1..]);
      UnescapeEntity(s[0], EscapeOnePass(s[1..]));
      assert s == [s[0]] + s[1..];
    }
  }

  /** `version.split('.').slice(0, 2).join('.')`: the major and minor
      parts of the axe-core version, which name its rule data file. */
  function AxeVersion(version: string): (r: string)
    ensures StartsWith(version, r)
  {
    var parts := Split(version, '.');
    if |parts| <= 2 then
      JoinSplit(version, '.');
      Join(parts, '.')
    else
      JoinSplit(version, '.');
      JoinPrefixTwo(parts, '.');
      Join(parts[..2], '.')
  }

  lemma JoinPrefixTwo(parts: seq<string>, sep: char)
    requires |parts| > 2
    ensures Join(parts, sep) == Join(parts[..2], sep) + [sep] + Join(parts[2..], sep)
  {
    assert parts[..2][1..] == [parts[1]];
    assert parts[1..][1..] == parts[2..];
  }

  /** A `major.minor.patch` version keeps `major.minor`; a version with at
      most one dot is kept whole. */
  lemma AxeVersionParts(major: string, minor: string, patch: string)
    requires '.' !in major && '.' !in minor && '.' !in patch
    ensures AxeVersion(major + "." + minor + "." + patch) == major + "." + minor
    ensures AxeVersion(major + "." + minor) == major + "." + minor
    ensures AxeVersion(major) == major
  {
    SplitJoin([major, minor, patch], '.');
    assert Join([major, minor, patch], '.') == major + "." + minor + "." + patch by {
      assert [major, minor, patch][1..] == [minor, patch];
      assert [minor, patch][1..] == [patch];
      assert Join([minor, patch], '.') == minor + "." + patch;
    }
    assert [major, minor, patch][..2] == [major, minor];
    SplitJoin([major, minor], '.');
    assert Join([major, minor], '.') == major + "." + minor by {
      assert [major, minor][1..] == [minor];
    }
    SplitNoSep(major, '.');
  }
}

=== FILE: exactmerge.dfy ===
/** The `exact` strategy of `deduplicate` in buildReport.js: a record is
    a duplicate when an earlier record has the same url and the same
    flattened node targets in its incomplete and violations sections; the
    first record of each key is kept and every later one loses. */
module ExactMerge {
  import opened Wrappers
  import opened Records

  /** The three fields the comparison looks at. The url keeps missing and
      `null` apart, as the serialised key does: an undefined url is left
      out of it, a `null` one is written as `null`. */
  datatype Key = Key(url: JsonString, incomplete: seq<string>, violations: seq<string>)

  /** The target selectors of all nodes, concatenated in node order. */
  function NodeTargets(nodes: seq<Node>): seq<string>
  {
    if nodes == [] then [] else nodes[0].target + NodeTargets(nodes[1..])
  }

  /** The target selectors of an issue's nodes; an issue without a node
      list has none. */
  function IssueTargets(issue: Issue): seq<string> {
    NodeTargets(issue.nodes.GetOr([]))
  }

  /** `section?.flatMap(i => ...) || []`: a missing section reads as empty. */
  function SectionTargets(section: Option<seq<Issue>>): seq<string> {
    IssuesTargets(SectionOrEmpty(section))
  }

  function IssuesTargets(issues: seq<Issue>): seq<string> {
    if issues == [] then [] else IssueTargets(issues[0]) + IssuesTargets(issues[1..])
  }

  /** Flattening distributes over concatenation, so a section's targets
      are its issues' targets laid end to end. */
  lemma {:induction false} IssuesTargetsAppend(a: seq<Issue>, b: seq<Issue>)
    ensures IssuesTargets(a + b) == IssuesTargets(a) + IssuesTargets(b)
  {
    if a == [] {
      assert a + b == b;
    } else {
      IssuesTargetsCons(a, b);
      IssuesTargetsAppend(a[1..], b);
      var h, x, y := IssueTargets(a[0]), IssuesTargets(a[1..]), IssuesTargets(b);
      assert h + (x + y) == (h + x) + y;
    }
  }

  lemma IssuesTargetsCons(a: seq<Issue>, b: seq<Issue>)
    requires a != []
    ensures IssuesTargets(a + b) == IssueTargets(a[0]) + IssuesTargets(a[1..] + b)
  {
    assert (a + b)[0] == a[0] && (a + b)[1..] == a[1..] + b;
  }

  lemma {:induction false} NodeTargetsAppend(a: seq<Node>, b: seq<Node>)
    ensures NodeTargets(a + b) == NodeTargets(a) + NodeTargets(b)
  {
    if a == [] {
      assert a + b == b;
    } else {
      NodeTargetsCons(a, b);
      NodeTargetsAppend(a[1..], b);
      var h, x, y := a[0].target, NodeTargets(a[1..]), NodeTargets(b);
      assert h + (x + y) == (h + x) + y;
    }
  }

  lemma NodeTargetsCons(a: seq<Node>, b: seq<Node>)
    requires a != []
    ensures NodeTargets(a + b) == a[0].target + NodeTargets(a[1..] + b)
  {
    assert (a + b)[0] == a[0] && (a + b)[1..] == a[1..] + b;
  }

  function KeyOf(r: Record): Key {
    Key(r.url, SectionTargets(r.incomplete), SectionTargets(r.violations))
  }

  /** Issues without nodes, and missing sections, add nothing to the key:
      such a record has the key of one with empty sections. */
  lemma {:induction false} NodelessIssuesAddNothing(issues: seq<Issue>)
    requires forall k :: 0 <= k < |issues| ==> issues[k].nodes.None?
    ensures IssuesTargets(issues) == []
  {
    if issues != [] {
      NodelessIssuesAddNothing(issues[1..]);
    }
  }

  /** `seen` holds the keys met so far; `losers` the positions pushed to
      `toDelete`, in push order. */
  datatype ExactState = ExactState(seen: set<Key>, losers: seq<nat>)

  /** The loop over the first `n` records. */
  function Fold(rs: seq<Record>, n: nat): (st: ExactState)
    requires n <= |rs|
    ensures forall i :: 0 <= i < |st.losers| ==> st.losers[i] < n
    ensures forall i, i' :: 0 <= i < i' < |st.losers| ==> st.losers[i] < st.losers[i']
  {
    if n == 0 then ExactState({}, [])
    else
      var prev := Fold(rs, n - 1);
      var key := KeyOf(rs[n - 1]);
      if key in prev.seen then prev.(losers := prev.losers + [n - 1])
      else ExactState(prev.seen + {key}, prev.losers)
  }

  /** Some record before position `j` has key `k`. */
  predicate SeenBefore(rs: seq<Record>, j: nat, k: Key)
    requires j <= |rs|
  {
    exists j' :: 0 <= j' < j && KeyOf(rs[j']) == k
  }

  /** `seen` is the set of keys met so far, and a record loses exactly
      when an earlier record has its key. */
  lemma FoldSpec(rs: seq<Record>, n: nat)
    requires n <= |rs|
    ensures forall k :: k in Fold(rs, n).seen <==> SeenBefore(rs, n, k)
    ensures forall j :: 0 <= j < n ==> (j in Fold(rs, n).losers <==> SeenBefore(rs, j, KeyOf(rs[j])))
  {
    FoldSeen(rs, n);
    FoldLosers(rs, n);
  }

  lemma {:induction false} FoldSeen(rs: seq<Record>, n: nat)
    requires n <= |rs|
    ensures forall k :: k in Fold(rs, n).seen <==> SeenBefore(rs, n, k)
  {
    if n > 0 {
      FoldSeen(rs, n - 1);
      var st := Fold(rs, n);
      var key := KeyOf(rs[n - 1]);
      assert st.seen == Fold(rs, n - 1).seen + {key};
      forall k ensures k in st.seen <==> SeenBefore(rs, n, k) {
        if SeenBefore(rs, n, k) && k != key {
          var j' :| 0 <= j' < n && KeyOf(rs[j']) == k;
          assert SeenBefore(rs, n - 1, k);
        }
        if SeenBefore(rs, n - 1, k) {
          var j' :| 0 <= j' < n - 1 && KeyOf(rs[j']) == k;
          assert SeenBefore(rs, n, k);
        }
      }
    }
  }

  lemma {:induction false} FoldLosers(rs: seq<Record>, n: nat)
    requires n <= |rs|
    ensures forall j :: 0 <= j < n ==> (j in Fold(rs, n).losers <==> SeenBefore(rs, j, KeyOf(rs[j])))
  {
    if n > 0 {
      FoldLosers(rs, n - 1);
      FoldSeen(rs, n - 1);
      var prev := Fold(rs, n - 1);
      var st := Fold(rs, n);
      assert st.losers == prev.losers || st.losers == prev.losers + [n - 1];
      forall j | 0 <= j < n ensures j in st.losers <==> SeenBefore(rs, j, KeyOf(rs[j])) {
        if j < n - 1 {
          assert j in st.losers <==> j in prev.losers;
        } else {
          assert n - 1 !in prev.losers;
        }
      }
    }
  }

  /** The records kept have pairwise distinct keys. */
  lemma SurvivorsDistinct(rs: seq<Record>, j: nat, j': nat)
    requires j < j' < |rs|
    requires j !in Fold(rs, |rs|).losers && j' !in Fold(rs, |rs|).losers
    ensures KeyOf(rs[j]) != KeyOf(rs[j'])
  {
    FoldSpec(rs, |rs|);
  }

  /** Every record's key is still held by a kept record: the first of the
      key, at or before it. */
  lemma {:induction false} FirstOfKey(rs: seq<Record>, j: nat)
    requires j < |rs|
    ensures exists j0 :: 0 <= j0 <= j && j0 !in Fold(rs, |rs|).losers && KeyOf(rs[j0]) == KeyOf(rs[j])
    decreases j
  {
    var st := Fold(rs, |rs|);
    FoldSpec(rs, |rs|);
    if j in st.losers {
      var j' :| 0 <= j' < j && KeyOf(rs[j']) == KeyOf(rs[j]);
      FirstOfKey(rs, j');
    }
  }
}

=== FILE: fingerprint.dfy ===
/** The page fingerprint the Playwright decorator stamps on every record
    (`normalizeUrl`, `formatUrl` and the `pagePath` field in
    axeDecorator.ts). URL parsing is not modelled: the operations take the
    parsed pathname and the ordered list of query keys. */
module Fingerprint {
  import opened Strings
  import opened Sorting
  import opened Segments
  import opened Wrappers

  /** The per-segment mask of `normalizeUrl`; tests are tried in this order. */
  function MaskSegment(seg: string): (r: string)
    ensures '/' !in seg ==> '/' !in r
    ensures r == seg || r == ":id" || r == ":uuid" || r == ":hash"
    ensures (r == seg) <==> !(AllDigits(seg) || UuidShaped(seg) || HashShaped(seg))
    ensures AllDigits(seg) ==> r == ":id"
    ensures !AllDigits(seg) && UuidShaped(seg) ==> r == ":uuid"
    ensures !AllDigits(seg) && !UuidShaped(seg) && HashShaped(seg) ==> r == ":hash"
  {
    if AllDigits(seg) then assert seg[0] != ':'; ":id"
    else if UuidShaped(seg) then assert seg[0] != ':'; ":uuid"
    else if HashShaped(seg) then assert seg[0] != ':'; ":hash"
    else seg
  }

  /** Masking is idempotent: the masks themselves match none of the shapes. */
  lemma MaskSegmentIdempotent(seg: string)
    ensures MaskSegment(MaskSegment(seg)) == MaskSegment(seg)
  {
    var m := MaskSegment(seg);
    if m != seg {
      ForeignCharDefeatsShapes(m, 0);
    }
  }

  function MaskAll(segs: seq<string>): (r: seq<string>)
    ensures |r| == |segs|
    ensures forall k :: 0 <= k < |segs| ==> r[k] == MaskSegment(segs[k])
  {
    seq(|segs|, k requires 0 <= k < |segs| => MaskSegment(segs[k]))
  }

  /** The pathname with every `/`-separated segment masked, the
      separators kept in place. */
  function NormalizePathname(pathname: string): string {
    Join(MaskAll(Split(pathname, '/')), '/')
  }

  /** Splitting the normalized path again gives back one masked segment per
      original segment, empty leading and trailing segments included. */
  lemma NormalizePathnameSegments(pathname: string)
    ensures Split(NormalizePathname(pathname), '/') == MaskAll(Split(pathname, '/'))
    ensures |Split(NormalizePathname(pathname), '/')| == |Split(pathname, '/')|
  {
    var segs := MaskAll(Split(pathname, '/'));
    SplitJoin(segs, '/');
  }

  /** Normalizing a normalized path changes nothing. */
  lemma NormalizePathnameIdempotent(pathname: string)
    ensures NormalizePathname(NormalizePathname(pathname)) == NormalizePathname(pathname)
  {
    var once := NormalizePathname(pathname);
    NormalizePathnameSegments(pathname);
    var segs := Split(pathname, '/');
    forall k | 0 <= k < |segs| ensures MaskSegment(MaskSegment(segs[k])) == MaskSegment(segs[k]) {
      MaskSegmentIdempotent(segs[k]);
    }
    assert MaskAll(Split(once, '/')) == MaskAll(segs);
  }

  function Param(key: string): string {
    key + "=*"
  }

  function Params(keys: seq<string>): (r: seq<string>)
    ensures |r| == |keys|
    ensures forall k :: 0 <= k < |keys| ==> r[k] == Param(keys[k])
  {
    seq(|keys|, k requires 0 <= k < |keys| => Param(keys[k]))
  }

  /** The query part of `normalizeUrl`: one `key=*` per search-parameter
      entry (duplicates kept, values dropped), sorted and joined by `&`. */
  function QueryString(keys: seq<string>): (r: string)
    ensures r == "" <==> keys == []
    ensures r != "" ==> r[0] == '?'
  {
    var params := Sort(Params(keys));
    if |params| > 0 then "?" + Join(params, '&') else ""
  }

  /** When no key contains `&`, the query splits back into the sorted
      multiset of `key=*` entries. */
  lemma QueryStringEntries(keys: seq<string>)
    requires keys != []
    requires forall k :: 0 <= k < |keys| ==> '&' !in keys[k]
    ensures var entries := Split(QueryString(keys)[1..], '&');
      Sorted(entries) && multiset(entries) == multiset(Params(keys))
  {
    var params := Sort(Params(keys));
    assert |params| == |keys| by {
      assert |multiset(params)| == |multiset(Params(keys))|;
    }
    forall k | 0 <= k < |params| ensures '&' !in params[k] {
      assert params[k] in multiset(Params(keys));
      var j :| 0 <= j < |keys| && Params(keys)[j] == params[k];
    }
    assert QueryString(keys)[1..] == Join(params, '&');
    SplitJoin(params, '&');
  }

  /** `normalizeUrl(url)` on the parsed pathname and query keys. */
  function NormalizeUrl(pathname: string, keys: seq<string>): string {
    NormalizePathname(pathname) + QueryString(keys)
  }

  /** A non-empty pathname (the URL parser always yields one that starts
      with `/`) gives a non-empty fingerprint, so every record the decorator
      writes has a truthy `newUrl`. */
  lemma NormalizeUrlNonEmpty(pathname: string, keys: seq<string>)
    requires pathname != ""
    ensures NormalizeUrl(pathname, keys) != ""
  {
    var segs := Split(pathname, '/');
    var masked := MaskAll(segs);
    if |segs| == 1 {
      JoinSplit(pathname, '/');
      assert segs[0] == pathname;
      assert NormalizePathname(pathname) == masked[0] == MaskSegment(pathname);
    } else {
      assert NormalizePathname(pathname) == masked[0] + ['/'] + Join(masked[1..], '/');
    }
  }

  lemma SplitThree(a: string, d: string, b: string)
    requires '/' !in a && '/' !in d && '/' !in b
    ensures Split("/" + a + "/" + d + "/" + b, '/') == ["", a, d, b]
  {
    var tail := d + "/" + b;
    var rest := a + "/" + tail;
    SplitNoSep(b, '/');
    SplitBefore(d, b, '/');
    SplitBefore(a, tail, '/');
    SplitBefore("", rest, '/');
    ThreeSegments(a, d, b);
  }

  lemma ThreeSegments(a: string, d: string, b: string)
    ensures "/" + a + "/" + d + "/" + b == "" + "/" + (a + "/" + (d + "/" + b))
  {
  }

  /** Splitting a string that starts with a separator-free part. */
  lemma SplitBefore(p: string, t: string, sep: char)
    requires sep !in p
    ensures Split(p + [sep] + t, sep) == [p] + Split(t, sep)
  {
    var s := p + [sep] + t;
    assert s[..|p|] == p && s[|p|] == sep && s[|p| + 1..] == t;
    SplitAt(s, sep, |p|);
  }

  /** Two visits whose paths differ only in numeric segments get the same
      fingerprint: `/user/482/profile?tab=billing` and
      `/user/917/profile?tab=shipping` both become `/user/:id/profile?tab=*`. */
  lemma NumericSegmentsCollapse(a: string, d1: string, d2: string, b: string, keys: seq<string>)
    requires '/' !in a && '/' !in b
    requires AllDigits(d1) && AllDigits(d2)
    ensures NormalizeUrl("/" + a + "/" + d1 + "/" + b, keys)
         == NormalizeUrl("/" + a + "/" + d2 + "/" + b, keys)
         == NormalizePathname("/" + a + "/" + ":id" + "/" + b) + QueryString(keys)
  {
    assert '/' !in d1 && '/' !in d2 by {
      assert forall k :: 0 <= k < |d1| ==> IsDigit(d1[k]);
      assert forall k :: 0 <= k < |d2| ==> IsDigit(d2[k]);
    }
    SplitThree(a, d1, b);
    SplitThree(a, d2, b);
    SplitThree(a, ":id", b);
    ForeignCharDefeatsShapes(":id", 0);
    assert MaskAll(["", a, d1, b]) == MaskAll(["", a, d2, b]) == MaskAll(["", a, ":id", b]);
  }

  /** A segment with a file extension is never masked, so
      `/inventory.html` keeps its page name in the fingerprint. */
  lemma DottedSegmentKept(seg: string, k: nat)
    requires k < |seg| && seg[k] == '.'
    ensures MaskSegment(seg) == seg
  {
    ForeignCharDefeatsShapes(seg, k);
  }

  predicate IsAlnum(c: char) {
    IsDigit(c) || 'a' <= c <= 'z' || 'A' <= c <= 'Z'
  }

  /** Every character that is not an ASCII letter or digit becomes a
      dash; the length is kept. */
  function DashNonAlnum(s: string): (r: string)
    ensures |r| == |s|
    ensures forall k :: 0 <= k < |s| ==> r[k] == (if IsAlnum(s[k]) then s[k] else '-')
    ensures forall c :: c in r ==> IsAlnum(c) || c == '-'
  {
    var r := seq(|s|, k requires 0 <= k < |s| => if IsAlnum(s[k]) then s[k] else '-');
    assert forall k :: 0 <= k < |r| ==> IsAlnum(r[k]) || r[k] == '-';
    r
  }

  /** The alphanumeric characters of `s`, in order. */
  function Alnums(s: string): string {
    if s == [] then []
    else (if IsAlnum(s[0]) then [s[0]] else []) + Alnums(s[1..])
  }

  lemma {:induction false} AlnumsConcat(a: string, b: string)
    ensures Alnums(a + b) == Alnums(a) + Alnums(b)
  {
    if a != [] {
      assert (a + b)[0] == a[0];
      assert (a + b)[1..] == a[1..] + b;
      AlnumsConcat(a[1..], b);
    } else {
      assert a + b == b;
    }
  }

  lemma {:induction false} AlnumsOfDashes(s: string)
    requires forall k :: 0 <= k < |s| ==> s[k] == '-'
    ensures Alnums(s) == []
  {
    if s != [] {
      AlnumsOfDashes(s[1..]);
    }
  }

  /** The number of dashes `s` starts with. */
  function LeadingDashes(s: string): (n: nat)
    ensures n <= |s| && (n == |s| || s[n] != '-')
    ensures forall k :: 0 <= k < n ==> s[k] == '-'
  {
    if s != [] && s[0] == '-' then
      var m := LeadingDashes(s[1..]);
      assert forall k :: 1 <= k < m + 1 ==> s[k] == s[1..][k - 1];
      m + 1
    else 0
  }

  /** The number of dashes `s` ends with. */
  function TrailingDashes(s: string): (n: nat)
    ensures n <= |s| && (n == |s| || s[|s| - n - 1] != '-')
    ensures forall k :: |s| - n <= k < |s| ==> s[k] == '-'
  {
    if s != [] && s[|s| - 1] == '-' then
      var init := s[..|s| - 1];
      var m := TrailingDashes(init);
      assert forall k :: |init| - m <= k < |init| ==> s[k] == init[k];
      m + 1
    else 0
  }

  /** Removing leading dashes keeps the letters and digits. */
  lemma DropDashPrefix(s: string, i: nat)
    requires i <= |s| && forall k :: 0 <= k < i ==> s[k] == '-'
    ensures Alnums(s[i..]) == Alnums(s)
  {
    assert s == s[..i] + s[i..];
    AlnumsConcat(s[..i], s[i..]);
    AlnumsOfDashes(s[..i]);
  }

  /** Removing trailing dashes keeps the letters and digits. */
  lemma DropDashSuffix(t: string, m: nat)
    requires m <= |t| && forall k :: m <= k < |t| ==> t[k] == '-'
    ensures Alnums(t[..m]) == Alnums(t)
  {
    assert t == t[..m] + t[m..];
    AlnumsConcat(t[..m], t[m..]);
    assert forall k :: 0 <= k < |t| - m ==> t[m..][k] == t[m + k];
    AlnumsOfDashes(t[m..]);
  }

  /** Every character of `s` before `i` and from `j` on is a dash. */
  predicate DashesOutside(s: string, i: nat, j: nat)
    requires i <= j <= |s|
  {
    && (forall k :: 0 <= k < i ==> s[k] == '-')
    && (forall k :: j <= k < |s| ==> s[k] == '-')
  }

  /** `r` is a contiguous piece of `s` obtained by cutting only dashes off
      its two ends; everything in between, inner dashes included, stays. */
  predicate CutsOuterDashes(s: string, r: string) {
    exists i: nat, j: nat :: i <= j <= |s| && r == s[i..j] && DashesOutside(s, i, j)
  }

  /** Removes every leading and every trailing dash (the regular
      expression `/^-+|-+$/g` replaced by nothing). */
  function StripDashes(s: string): (r: string)
    ensures r == [] || (r[0] != '-' && r[|r| - 1] != '-')
    ensures CutsOuterDashes(s, r)
    ensures Alnums(r) == Alnums(s)
    ensures forall c :: c in r ==> c in s
  {
    var i := LeadingDashes(s);
    var n := TrailingDashes(s[i..]);
    assert DashesOutside(s, i, |s| - n) by {
      assert forall k :: |s| - n <= k < |s| ==> s[k] == s[i..][k - i];
    }
    StripEnds(s, i, n);
    StripAlnums(s, i, n);
    SliceMembers(s, i, |s| - n);
    s[i..|s| - n]
  }

  /** `s` has exactly `i` leading dashes, and `s[i..]` exactly `n`
      trailing ones. */
  predicate DashRuns(s: string, i: nat, n: nat) {
    && i <= |s| && n <= |s| - i
    && (forall k :: 0 <= k < i ==> s[k] == '-')
    && (i == |s| || s[i] != '-')
    && (forall k :: |s| - i - n <= k < |s| - i ==> s[i..][k] == '-')
    && (n == |s| - i || s[i..][|s| - i - n - 1] != '-')
  }

  lemma StripAlnums(s: string, i: nat, n: nat)
    requires DashRuns(s, i, n)
    ensures Alnums(s[i..|s| - n]) == Alnums(s)
  {
    var t := s[i..];
    DropDashPrefix(s, i);
    DropDashSuffix(t, |t| - n);
    assert t[..|t| - n] == s[i..|s| - n];
  }

  lemma StripEnds(s: string, i: nat, n: nat)
    requires DashRuns(s, i, n)
    ensures var r := s[i..|s| - n]; r == [] || (r[0] != '-' && r[|r| - 1] != '-')
  {
    var t := s[i..];
    var j := |s| - n;
    if i < j {
      assert s[i..j][0] == s[i];
      assert s[i..j][j - i - 1] == s[j - 1] == t[|t| - n - 1];
    }
  }

  lemma SliceMembers<T>(s: seq<T>, i: nat, j: nat)
    requires i <= j <= |s|
    ensures forall c :: c in s[i..j] ==> c in s
  {
    forall c | c in s[i..j] ensures c in s {
      var k :| 0 <= k < j - i && s[i..j][k] == c;
      assert s[i + k] == c;
    }
  }

  lemma {:induction false} DashedAlnums(s: string)
    ensures Alnums(DashNonAlnum(s)) == Alnums(s)
  {
    if s != [] {
      assert DashNonAlnum(s)[1..] == DashNonAlnum(s[1..]);
      DashedAlnums(s[1..]);
    }
  }

  /** `pagePath`: the fingerprint with the configured base URL removed
      (`url.replace(process.env.URL ?? "", "")`). */
  function RelativePath(url: string, baseUrl: string): string {
    ReplaceFirst(url, baseUrl, "")
  }

  /** A dash-free-ended string of letters, digits and dashes is empty
      exactly when it has no letters or digits. */
  lemma EmptyIffNoAlnums(path: string)
    requires forall c :: c in path ==> IsAlnum(c) || c == '-'
    requires path == [] || path[0] != '-'
    ensures path == [] <==> Alnums(path) == []
  {
    if path != [] {
      assert path[0] in path;
      assert Alnums(path) == [path[0]] + Alnums(path[1..]);
    }
  }

  /** The part of `formatUrl` after the base URL is removed: every
      non-alphanumeric character becomes `-`, then leading and trailing
      dashes go. */
  function DashedPath(rel: string): (path: string)
    ensures forall c :: c in path ==> IsAlnum(c) || c == '-'
    ensures path == [] || (path[0] != '-' && path[|path| - 1] != '-')
    ensures Alnums(path) == Alnums(rel)
    ensures path == [] <==> Alnums(rel) == []
    ensures CutsOuterDashes(DashNonAlnum(rel), path)
  {
    var dashed := DashNonAlnum(rel);
    var path := StripDashes(dashed);
    DashedAlnums(rel);
    EmptyIffNoAlnums(path);
    path
  }

  /** `formatUrl`: the `path` group key that `best` de-duplication uses.
      The dashed path never starts with `/`, so the source's
      `startsWith("/")` test always takes the prefixing branch. */
  function FormatUrl(inputUrl: string, baseUrl: string): (r: string)
    ensures |r| >= 1 && r[0] == '/'
    ensures forall c :: c in r[1..] ==> IsAlnum(c) || c == '-'
    ensures |r| > 1 ==> r[1] != '-' && r[|r| - 1] != '-'
    ensures r == "/" <==> Alnums(RelativePath(inputUrl, baseUrl)) == []
    ensures Alnums(r[1..]) == Alnums(RelativePath(inputUrl, baseUrl))
    ensures CutsOuterDashes(DashNonAlnum(RelativePath(inputUrl, baseUrl)), r[1..])
  {
    var rel := RelativePath(inputUrl, baseUrl);
    var path := DashedPath(rel);
    var r := "/" + path;
    assert r[1..] == path;
    r
  }

  /** With an empty base URL nothing is removed. */
  lemma FormatUrlNoBase(s: string)
    ensures FormatUrl(s, "") == "/" + DashedPath(s)
  {
    assert IndexFrom(s, "", 0) == Some(0);
    assert s[..0] + "" + s[0..] == s;
  }

  /** `formatUrl` only sees which characters are letters or digits: two
      inputs that agree on those, position by position, get the same key. */
  lemma DashedPathIgnoresPunctuation(s: string, t: string)
    requires |s| == |t|
    requires forall k :: 0 <= k < |s| ==> s[k] == t[k] || (!IsAlnum(s[k]) && !IsAlnum(t[k]))
    ensures DashedPath(s) == DashedPath(t)
  {
    assert DashNonAlnum(s) == DashNonAlnum(t);
  }

  /** `formatUrl` is not injective: distinct pages such as `/a/b` and
      `/a-b` share a `path` key and then compete in one `best` group. */
  lemma FormatUrlMergesPages(a: string, b: string)
    ensures FormatUrl("/" + a + "/" + b, "") == FormatUrl("/" + a + "-" + b, "")
    ensures "/" + a + "/" + b != "/" + a + "-" + b
  {
    FormatUrlNoBase("/" + a + "/" + b);
    FormatUrlNoBase("/" + a + "-" + b);
    SlashOrDash(a, b);
  }

  lemma SlashOrDash(a: string, b: string)
    ensures DashedPath("/" + a + "/" + b) == DashedPath("/" + a + "-" + b)
    ensures "/" + a + "/" + b != "/" + a + "-" + b
  {
    var p, q := "/" + a + "/", "/" + a + "-";
    var s, t := p + b, q + b;
    assert s == "/" + a + "/" + b && t == "/" + a + "-" + b;
    assert p[|a| + 1] != q[|a| + 1];
    assert s[|a| + 1] == p[|a| + 1] && t[|a| + 1] == q[|a| + 1];
    assert forall k :: 0 <= k <= |a| ==> p[k] == q[k];
    forall k | 0 <= k < |s| ensures s[k] == t[k] || (!IsAlnum(s[k]) && !IsAlnum(t[k])) {
      if k < |p| {
        assert s[k] == p[k] && t[k] == q[k];
      } else {
        assert s[k] == b[k - |p|] == t[k];
      }
    }
    DashedPathIgnoresPunctuation(s, t);
  }
}

=== FILE: pagenames.dfy ===
/** How buildReport.js names a page: the id a record file stands for
    (its file name without `.json`), the backfill of a missing `id`, and
    `normalizePath`, the fallback name of the page's HTML file. */
module PageNames {
  import opened Wrappers
  import opened Strings
  import opened Segments
  import opened Records

  /** `path.basename(file, '.json')` for a directory entry ending in
      `.json`: the name with that suffix removed (a file called exactly
      `.json` gives the empty id). */
  function FileId(file: string): (r: string)
    requires EndsWith(file, ".json")
    ensures r + ".json" == file
  {
    file[..|file| - 5]
  }

  /** Distinct `.json` files have distinct ids. */
  lemma FileIdInjective(a: string, b: string)
    requires EndsWith(a, ".json") && EndsWith(b, ".json")
    requires FileId(a) == FileId(b)
    ensures a == b
  {
  }

  /** A record read back from `file`: a falsy `id` is replaced by the
      file's id; everything else is left as it is. */
  function Backfill(e: Entry): (r: Record)
    requires EndsWith(e.file, ".json")
    ensures Truthy(e.data.id) ==> r == e.data
    ensures !Truthy(e.data.id) ==> r.id == Some(FileId(e.file))
    ensures r.(id := e.data.id) == e.data
  {
    if Truthy(e.data.id) then e.data else e.data.(id := Some(FileId(e.file)))
  }

  /** A backfilled record always has an id, and it is truthy unless the
      file is called exactly `.json`. */
  lemma BackfillGivesId(e: Entry)
    requires EndsWith(e.file, ".json")
    ensures Backfill(e).id.Some?
    ensures e.file != ".json" ==> Truthy(Backfill(e).id)
  {
    if !Truthy(e.data.id) && e.file != ".json" {
      assert |e.file| > 5;
    }
  }

  /** The page-name rewriting of one non-empty pathname segment. */
  function PageSegment(seg: string): (r: string)
    ensures '/' !in seg ==> '/' !in r
    ensures AllDigits(seg) ==> r == "id"
    ensures !AllDigits(seg) && UuidShaped(seg) ==> r == "uuid"
    ensures !AllDigits(seg) && !UuidShaped(seg) && HashShaped(seg) ==> r == "hash"
    ensures !AllDigits(seg) && !UuidShaped(seg) && !HashShaped(seg) && EndsWith(seg, ".html") ==>
      exists i: nat :: OccursAt(seg, ".html", i)
        && (forall j: nat :: j < i ==> !OccursAt(seg, ".html", j))
        && r == seg[..i] + seg[i + 5..]
    ensures !AllDigits(seg) && !UuidShaped(seg) && !HashShaped(seg) && !EndsWith(seg, ".html") ==> r == seg
  {
    if AllDigits(seg) then "id"
    else if UuidShaped(seg) then "uuid"
    else if HashShaped(seg) then "hash"
    else if EndsWith(seg, ".html") then DropHtml(seg)
    else seg
  }

  /** `segment.replace(".html", "")` on a segment ending in `.html`: the
      first occurrence of `.html` is cut out. */
  function DropHtml(seg: string): (r: string)
    requires EndsWith(seg, ".html")
    ensures exists i: nat ::
      && OccursAt(seg, ".html", i)
      && (forall j: nat :: j < i ==> !OccursAt(seg, ".html", j))
      && r == seg[..i] + seg[i + 5..]
  {
    assert OccursAt(seg, ".html", |seg| - 5) by { assert seg[|seg| - 5..|seg|] == seg[|seg| - 5..]; }
    var r := ReplaceFirst(seg, ".html", "");
    assert forall i: nat | i + 5 <= |seg| :: seg[..i] + "" + seg[i + 5..] == seg[..i] + seg[i + 5..];
    r
  }

  /** A segment whose only dot is that of its `.html` suffix loses
      exactly the suffix. */
  lemma HtmlSuffixRemoved(stem: string)
    requires '.' !in stem
    ensures PageSegment(stem + ".html") == stem
  {
    var seg := stem + ".html";
    var k := |stem|;
    assert seg[k] == '.';
    ForeignCharDefeatsShapes(seg, k);
    assert EndsWith(seg, ".html") by { assert seg[|seg| - 5..] == ".html"; }
    assert OccursAt(seg, ".html", k) by { assert seg[k..k + 5] == ".html"; }
    forall j: nat | j < k ensures !OccursAt(seg, ".html", j) {
      assert seg[j] == stem[j];
    }
    ReplaceFirstAt(seg, ".html", "", k);
    assert seg[..k] == stem;
    assert seg[k + 5..] == "";
  }

  /** The `/`-separated segments of a pathname, empty ones dropped. */
  function NonEmptySegments(pathname: string): (r: seq<string>)
    ensures forall k :: 0 <= k < |r| ==> r[k] != "" && '/' !in r[k]
  {
    var parts := Split(pathname, '/');
    var r := DropEmpty(parts);
    assert forall k :: 0 <= k < |r| ==> r[k] in parts;
    r
  }

  function PageSegments(pathname: string): (r: seq<string>)
    ensures |r| == |NonEmptySegments(pathname)|
    ensures forall k :: 0 <= k < |r| ==> r[k] == PageSegment(NonEmptySegments(pathname)[k])
  {
    var segs := NonEmptySegments(pathname);
    seq(|segs|, k requires 0 <= k < |segs| => PageSegment(segs[k]))
  }

  /** `normalizePath(url)` on the URL's pathname: the rewritten non-empty
      segments joined by `_`, or `root` when that is empty. */
  function NormalizePath(pathname: string): (r: string)
    ensures r != ""
    ensures '/' !in r
    ensures NonEmptySegments(pathname) == [] ==> r == "root"
  {
    var segs := PageSegments(pathname);
    JoinAvoids(segs, '_', '/');
    var joined := Join(segs, '_');
    if joined == "" then "root" else joined
  }

  /** A pathname made only of slashes is the root page. */
  lemma SlashesAreRoot(pathname: string)
    requires forall k :: 0 <= k < |pathname| ==> pathname[k] == '/'
    ensures NormalizePath(pathname) == "root"
  {
    SplitOfSeparators(pathname, '/');
  }

  /** A string made only of separators splits into empty parts. */
  lemma {:induction false} SplitOfSeparators(s: string, sep: char)
    requires forall k :: 0 <= k < |s| ==> s[k] == sep
    ensures forall k :: 0 <= k < |Split(s, sep)| ==> Split(s, sep)[k] == ""
  {
    if s != [] {
      SplitOfSeparators(s[1..], sep);
    }
  }

  /** The page name keeps the segments in order: split on `_`, it gives
      back the rewritten non-empty segments, whenever none of them holds an
      underscore and the name is not the `root` fallback. */
  lemma NormalizePathSegments(pathname: string)
    requires PageSegments(pathname) != []
    requires forall k :: 0 <= k < |PageSegments(pathname)| ==> '_' !in PageSegments(pathname)[k]
    requires Join(PageSegments(pathname), '_') != ""
    ensures Split(NormalizePath(pathname), '_') == PageSegments(pathname)
  {
    SplitJoin(PageSegments(pathname), '_');
  }

  /** The name of a record's HTML page: its `id`, or the page name of its
      URL's pathname when the id is falsy. */
  function HtmlName(rec: Record, pathname: string): (r: string)
    ensures Truthy(rec.id) ==> r == rec.id.value
    ensures !Truthy(rec.id) ==> r == NormalizePath(pathname)
  {
    if Truthy(rec.id) then rec.id.value else NormalizePath(pathname)
  }

  /** After the id backfill, which runs before any page is written, the
      `normalizePath` fallback is only reached for a file called `.json`. */
  lemma BackfilledNamesUseFileId(e: Entry, pathname: string)
    requires EndsWith(e.file, ".json") && e.file != ".json"
    ensures HtmlName(Backfill(e), pathname) == Backfill(e).id.value
    ensures !Truthy(e.data.id) ==> HtmlName(Backfill(e), pathname) == FileId(e.file)
  {
    BackfillGivesId(e);
  }
}

=== FILE: pagination.dfy ===
/** The pagination arithmetic of main.js: the number of pages, the
    window of page buttons, the range text, which issue cards and table
    rows are visible, and the prev/next buttons. `perPage` is the number
    of issues per page and `c` the current page of the tab. */
module Pagination {

  /** `Math.ceil(n / perPage)` */
  function TotalPages(n: nat, perPage: nat): (t: nat)
    requires perPage >= 1
    ensures (t - 1) * perPage < n <= t * perPage || (n == 0 && t == 0)
  {
    (n + perPage - 1) / perPage
  }

  function Max(a: int, b: int): int { if a >= b then a else b }
  function Min(a: int, b: int): int { if a <= b then a else b }

  /** The first and last page button of `updatePaginationUI`. */
  function PageWindow(c: int, t: nat): (w: (int, int))
    ensures 1 <= w.0 && w.1 <= t && w.1 - w.0 <= 4
    ensures 1 <= c <= t ==> w.0 <= c <= w.1
    ensures t >= 5 ==> w.1 - w.0 == 4
    ensures t < 5 ==> w == (1, t)
  {
    var start := Max(1, c - 2);
    var end := Min(t, start + 4);
    if end - start < 4 then (Max(1, end - 4), end) else (start, end)
  }

  /** The page numbers of the buttons, in order. */
  function Buttons(c: int, t: nat): (pages: seq<int>)
    ensures |pages| == if t >= 5 then 5 else t
    ensures forall k :: 0 <= k < |pages| ==> 1 <= pages[k] <= t && pages[k] == pages[0] + k
    ensures 1 <= c <= t ==> c in pages
  {
    var (start, end) := PageWindow(c, t);
    var pages := seq(if end < start then 0 else end - start + 1, k => start + k);
    assert 1 <= c <= t ==> pages[c - start] == c;
    pages
  }

  /** With fewer than five pages every page has a button. */
  lemma FewPagesAllShown(c: int, t: nat)
    requires t < 5
    ensures forall p :: 1 <= p <= t ==> p in Buttons(c, t)
  {
    var pages := Buttons(c, t);
    forall p | 1 <= p <= t ensures p in pages {
      assert pages[p - 1] == p;
    }
  }

  /** The `start-end` range text. */
  function RangeText(c: int, perPage: nat, total: nat): (r: (int, int))
    requires perPage >= 1
    ensures c >= 1 ==> r.0 <= r.1
  {
    var startItem := if total > 0 then Min((c - 1) * perPage + 1, total) else 0;
    var endItem := Min(c * perPage, total);
    (startItem, endItem)
  }

  /** Issue card `i` is shown on page `c` (`paginateIssues`). */
  predicate VisibleIssue(i: nat, c: int, perPage: nat) {
    var startIndex := (c - 1) * perPage;
    var endIndex := startIndex + perPage - 1;
    startIndex <= i <= endIndex
  }

  /** The page an index lies on. */
  function PageOf(i: nat, perPage: nat): (c: nat)
    requires perPage >= 1
    ensures VisibleIssue(i, c, perPage)
    ensures c >= 1
  {
    i / perPage + 1
  }

  /** Each index is visible on exactly one page, which exists. */
  lemma PagesPartitionIndices(i: nat, n: nat, c: int, perPage: nat)
    requires perPage >= 1 && i < n
    ensures PageOf(i, perPage) <= TotalPages(n, perPage)
    ensures VisibleIssue(i, c, perPage) <==> c == PageOf(i, perPage)
  {
    DivMonotone(i + perPage, n + perPage - 1, perPage);
    assert (i + perPage) / perPage == i / perPage + 1 by {
      DivUnique(i + perPage, i / perPage + 1, perPage);
    }
    if VisibleIssue(i, c, perPage) {
      DivUnique(i, c - 1, perPage);
    }
  }

  lemma MulMonotone(a: int, b: int, m: nat)
    requires a <= b
    ensures a * m <= b * m
  {
  }

  /** `i / m == a` exactly when `i` lies in the `a`-th block of width `m`. */
  lemma DivUnique(i: nat, a: int, m: nat)
    requires m >= 1 && a * m <= i < a * m + m
    ensures i / m == a
  {
    var q := i / m;
    assert i == q * m + i % m;
    if q < a {
      MulMonotone(q + 1, a, m);
    } else if q > a {
      MulMonotone(a + 1, q, m);
    }
  }

  lemma DivMonotone(x: nat, y: nat, m: nat)
    requires m >= 1 && x <= y
    ensures x / m <= y / m
  {
    var qx, qy := x / m, y / m;
    assert x == qx * m + x % m && y == qy * m + y % m;
    if qx > qy {
      MulMonotone(qy + 1, qx, m);
    }
  }

  /** The range text names exactly the visible cards (1-based), whenever
      the current page is a real page. */
  lemma RangeTextMatchesWindow(c: int, perPage: nat, total: nat, i: nat)
    requires perPage >= 1 && i < total
    requires 1 <= c <= TotalPages(total, perPage)
    ensures var (s, e) := RangeText(c, perPage, total);
      VisibleIssue(i, c, perPage) <==> s <= i + 1 <= e
  {
    var t := TotalPages(total, perPage);
    assert (c - 1) * perPage < total by {
      MulMonotone(c, t, perPage);
    }
  }

  /** Table row `index` is shown on table page `c` (`paginateTable`). */
  predicate VisibleRow(index: nat, c: int, rowsPerPage: nat) {
    index >= (c - 1) * rowsPerPage && index < c * rowsPerPage
  }

  /** The table uses the issue cards' rule with ten rows per page. */
  lemma TableRuleIsIssueRule(index: nat, c: int)
    ensures VisibleRow(index, c, 10) <==> VisibleIssue(index, c, 10)
  {
  }

  /** At most `perPage` cards are visible: the visible indices lie in a
      window of that width. */
  lemma WindowWidth(i: nat, j: nat, c: int, perPage: nat)
    requires VisibleIssue(i, c, perPage) && VisibleIssue(j, c, perPage)
    ensures i - j < perPage
  {
  }

  /** The prev button's click. */
  function Prev(c: int): int {
    if c > 1 then c - 1 else c
  }

  /** The next button's click. */
  function Next(c: int, t: nat): int {
    if c < t then c + 1 else c
  }

  predicate PrevDisabled(c: int) { c == 1 }

  predicate NextDisabled(c: int, t: nat) { c == t || t == 0 }

  /** The clicks keep the page in `[1, t]`, and a button is disabled
      exactly when its click would not change the page. */
  lemma PrevNextBounds(c: int, t: nat)
    requires 1 <= c <= t
    ensures 1 <= Prev(c) <= t && 1 <= Next(c, t) <= t
    ensures PrevDisabled(c) <==> Prev(c) == c
    ensures NextDisabled(c, t) <==> Next(c, t) == c
  {
  }
}

=== FILE: records.dfy ===
/** The scan records the report builder reads back: the axe-core result
    object with the fields the Playwright decorator adds (`id`, `newUrl`,
    `pagePath`, `path`). JSON fields that may be missing are `Option`s;
    JavaScript truthiness of a string field is `Truthy`. */
module Records {
  import opened Wrappers

  /** A JSON value where a string is expected: missing, `null`, or a string.
      `null` and missing differ for `===` (the impact counts), for
      `JSON.stringify` (the `exact` key) and as `Map` keys (the `best`
      groups). */
  datatype JsonString = Missing | Null | Str(text: string)

  /** One affected DOM element; `target` is its list of CSS selectors. */
  datatype Node = Node(target: seq<string>)

  /** One axe rule result. */
  datatype Issue = Issue(
    id: string,
    impact: JsonString,
    tags: Option<seq<string>>,
    nodes: Option<seq<Node>>)

  /** One persisted page scan. `timestamp` is the capture time as
      `new Date(...)` reads it, in milliseconds; `None` is an invalid date. */
  datatype Record = Record(
    id: Option<string>,
    url: JsonString,
    newUrl: Option<string>,
    pagePath: Option<string>,
    path: JsonString,
    timestamp: Option<int>,
    violations: Option<seq<Issue>>,
    incomplete: Option<seq<Issue>>,
    passes: Option<seq<Issue>>,
    inapplicable: Option<seq<Issue>>)

  /** A `.json` file of the pages directory with its parsed content. */
  datatype Entry = Entry(file: string, data: Record)

  /** A string-valued field is truthy in JavaScript iff present and non-empty. */
  predicate Truthy(o: Option<string>) {
    o.Some? && o.value != ""
  }

  predicate JsonTruthy(v: JsonString) {
    v.Str? && v.text != ""
  }

  /** `v ?? ''` for a string value: missing and `null` read as `""`. */
  function TextOrEmpty(v: JsonString): string {
    if v.Str? then v.text else ""
  }

  /** `report.section ? report.section.length : 0` */
  function SectionLength(section: Option<seq<Issue>>): nat {
    if section.Some? then |section.value| else 0
  }

  /** `section || []`: a missing section reads as empty. */
  function SectionOrEmpty(section: Option<seq<Issue>>): seq<Issue> {
    section.GetOr([])
  }

  /** All three sections the dashboards iterate are present. */
  predicate HasMainSections(r: Record) {
    r.violations.Some? && r.incomplete.Some? && r.passes.Some?
  }
}

=== FILE: segments.dfy ===
/** The three path-segment shapes that both the URL fingerprint
    (axeDecorator.ts) and the fallback page file name (buildReport.js)
    treat as volatile, with the regular expressions they stand for. */
module Segments {
  import opened Strings

  predicate IsHexChar(c: char) {
    IsDigit(c) || 'a' <= c <= 'f' || 'A' <= c <= 'F'
  }

  /** `/^\d+$/` */
  predicate AllDigits(s: string) {
    |s| >= 1 && forall k :: 0 <= k < |s| ==> IsDigit(s[k])
  }

  /** `/^[a-f0-9-]{36}$/i` */
  predicate UuidShaped(s: string) {
    |s| == 36 && forall k :: 0 <= k < |s| ==> IsHexChar(s[k]) || s[k] == '-'
  }

  /** `/^[a-f0-9]{8,}$/i` */
  predicate HashShaped(s: string) {
    |s| >= 8 && forall k :: 0 <= k < |s| ==> IsHexChar(s[k])
  }

  /** A segment holding any character outside `[0-9a-fA-F-]` has none of
      the three shapes: the masks `:id`, `:uuid`, `:hash` (a colon) and file
      names such as `page.html` (a dot) are left alone. */
  lemma ForeignCharDefeatsShapes(s: string, k: nat)
    requires k < |s| && !IsHexChar(s[k]) && s[k] != '-'
    ensures !AllDigits(s) && !UuidShaped(s) && !HashShaped(s)
  {
  }
}

=== FILE: sorting.dfy ===
/** Sorting of strings in the order JavaScript's `Array.prototype.sort`
    uses when no comparator is given: lexicographic on characters. Dafny
    characters are Unicode scalar values; JavaScript compares UTF-16 code
    units, which gives the same order for characters up to U+FFFF. */
module Sorting {

  /** `a` comes strictly before `b` in character order. */
  predicate Below(a: string, b: string) {
    if b == [] then false
    else if a == [] then true
    else if a[0] != b[0] then a[0] < b[0]
    else Below(a[1..], b[1..])
  }

  lemma {:induction false} BelowIrreflexive(a: string)
    ensures !Below(a, a)
  {
    if a != [] {
      BelowIrreflexive(a[1..]);
    }
  }

  lemma {:induction false} BelowTransitive(a: string, b: string, c: string)
    requires Below(a, b) && Below(b, c)
    ensures Below(a, c)
  {
    if a != [] && a[0] == b[0] && b[0] == c[0] {
      BelowTransitive(a[1..], b[1..], c[1..]);
    }
  }

  lemma {:induction false} BelowTotal(a: string, b: string)
    requires a != b
    ensures Below(a, b) || Below(b, a)
  {
    if a != [] && b != [] && a[0] == b[0] {
      assert a == [a[0]] + a[1..] && b == [b[0]] + b[1..];
      BelowTotal(a[1..], b[1..]);
    }
  }

  lemma BelowAsymmetric(a: string, b: string)
    requires Below(a, b)
    ensures !Below(b, a)
  {
    if Below(b, a) {
      BelowTransitive(a, b, a);
      BelowIrreflexive(a);
    }
  }

  /** No element is strictly below an earlier one (duplicates allowed). */
  predicate Sorted(xs: seq<string>) {
    forall i, j :: 0 <= i < j < |xs| ==> !Below(xs[j], xs[i])
  }

  /** Strictly increasing, hence also free of duplicates. */
  predicate StrictlySorted(xs: seq<string>) {
    forall i, j :: 0 <= i < j < |xs| ==> Below(xs[i], xs[j])
  }

  /** Every element of a sorted sequence is at least its head. */
  lemma SortedHeadLeast(xs: seq<string>, y: string)
    requires Sorted(xs) && xs != [] && y in xs
    ensures !Below(y, xs[0])
  {
    var j :| 0 <= j < |xs| && xs[j] == y;
    if j > 0 {
      assert !Below(xs[j], xs[0]);
    } else {
      BelowIrreflexive(y);
    }
  }

  function Insert(x: string, xs: seq<string>): (r: seq<string>)
    requires Sorted(xs)
    ensures Sorted(r)
    ensures multiset(r) == multiset(xs) + multiset{x}
  {
    if xs == [] then [x]
    else if !Below(xs[0], x) then
      var r := [x] + xs;
      assert Sorted(r) by {
        forall j | 1 <= j < |r| ensures !Below(r[j], x) {
          if Below(r[j], x) {
            SortedHeadLeast(xs, r[j]);
            if r[j] != xs[0] {
              BelowTotal(r[j], xs[0]);
              BelowTransitive(xs[0], r[j], x);
            }
          }
        }
      }
      r
    else
      var tail := Insert(x, xs[1..]);
      var r := [xs[0]] + tail;
      assert Sorted(r) by {
        forall j | 1 <= j < |r| ensures !Below(r[j], xs[0]) {
          assert r[j] in multiset(tail);
          if r[j] == x {
            BelowAsymmetric(xs[0], x);
          } else {
            assert r[j] in xs[1..];
            SortedHeadLeast(xs, r[j]);
          }
        }
      }
      assert xs == [xs[0]] + xs[1..];
      r
  }

  /** `Array.prototype.sort()` on strings: an ordered permutation. */
  function Sort(xs: seq<string>): (r: seq<string>)
    ensures Sorted(r)
    ensures multiset(r) == multiset(xs)
  {
    if xs == [] then []
    else
      assert xs == [xs[0]] + xs[1..];
      Insert(xs[0], Sort(xs[1..]))
  }

  function InsertUnique(x: string, xs: seq<string>): (r: seq<string>)
    requires StrictlySorted(xs)
    ensures StrictlySorted(r)
    ensures forall y :: y in r <==> y == x || y in xs
  {
    if xs == [] then [x]
    else if x == xs[0] then xs
    else if Below(x, xs[0]) then
      var r := [x] + xs;
      assert StrictlySorted(r) by {
        forall j | 1 <= j < |r| ensures Below(x, r[j]) {
          if j > 1 {
            BelowTransitive(x, xs[0], r[j]);
          }
        }
      }
      r
    else
      BelowTotal(x, xs[0]);
      var tail := InsertUnique(x, xs[1..]);
      var r := [xs[0]] + tail;
      assert StrictlySorted(r) by {
        forall j | 1 <= j < |r| ensures Below(xs[0], r[j]) {
          assert r[j] in tail;
        }
      }
      r
  }

  /** `[...new Set(xs)].sort()`: the distinct values in increasing order. */
  function SortUnique(xs: seq<string>): (r: seq<string>)
    ensures StrictlySorted(r)
    ensures forall y :: y in r <==> y in xs
  {
    if xs == [] then [] else InsertUnique(xs[0], SortUnique(xs[1..]))
  }
}

=== FILE: strings.dfy ===
/** The few JavaScript string operations the report code relies on:
    `startsWith`, `endsWith`, `includes`, `replace` with a string pattern,
    `split`/`join` on one character, `trim`, ASCII case mapping and the
    decimal rendering of a number. Strings are sequences of Dafny `char`,
    that is of Unicode scalar values, where JavaScript strings are
    sequences of UTF-16 code units; the two agree on every character up to
    U+FFFF. */
module Strings {
  import opened Wrappers

  predicate StartsWith(s: string, prefix: string) {
    |prefix| <= |s| && s[..|prefix|] == prefix
  }

  predicate EndsWith(s: string, suffix: string) {
    |suffix| <= |s| && s[|s| - |suffix|..] == suffix
  }

  /** `pat` occurs in `s` starting at position `i`. */
  predicate OccursAt(s: string, pat: string, i: nat) {
    i + |pat| <= |s| && s[i..i + |pat|] == pat
  }

  /** `s.includes(sub)`: `sub` occurs somewhere in `s`. */
  predicate Includes(s: string, sub: string) {
    exists i: nat | i <= |s| :: OccursAt(s, sub, i)
  }

  /** The first position at or after `from` where `pat` occurs. */
  function IndexFrom(s: string, pat: string, from: nat): (r: Option<nat>)
    requires from <= |s|
    ensures r.Some? ==> from <= r.value && OccursAt(s, pat, r.value)
    ensures r.Some? ==> forall j: nat :: from <= j < r.value ==> !OccursAt(s, pat, j)
    ensures r.None? ==> forall j: nat :: from <= j ==> !OccursAt(s, pat, j)
    decreases |s| - from
  {
    if from + |pat| > |s| then None
    else if OccursAt(s, pat, from) then Some(from)
    else IndexFrom(s, pat, from + 1)
  }

  /** `s.replace(pat, rep)` with a string pattern: only the first
      occurrence is replaced, and an empty pattern matches at position 0. */
  function ReplaceFirst(s: string, pat: string, rep: string): (r: string)
    ensures !Includes(s, pat) ==> r == s
    ensures Includes(s, pat) ==>
      exists i: nat :: OccursAt(s, pat, i)
        && (forall j: nat :: j < i ==> !OccursAt(s, pat, j))
        && r == s[..i] + rep + s[i + |pat|..]
  {
    match IndexFrom(s, pat, 0)
    case None => s
    case Some(i) =>
      var r := s[..i] + rep + s[i + |pat|..];
      assert OccursAt(s, pat, i) && (forall j: nat :: j < i ==> !OccursAt(s, pat, j));
      r
  }

  /** The first occurrence at a known position is the one replaced. */
  lemma ReplaceFirstAt(s: string, pat: string, rep: string, i: nat)
    requires OccursAt(s, pat, i)
    requires forall j: nat :: j < i ==> !OccursAt(s, pat, j)
    ensures ReplaceFirst(s, pat, rep) == s[..i] + rep + s[i + |pat|..]
  {
    assert IndexFrom(s, pat, 0) == Some(i);
  }

  /** `s.split(sep)` for a one-character separator. */
  function Split(s: string, sep: char): (parts: seq<string>)
    ensures |parts| >= 1
    ensures forall k :: 0 <= k < |parts| ==> sep !in parts[k]
  {
    if s == [] then [""]
    else
      var rest := Split(s[1..], sep);
      if s[0] == sep then [""] + rest
      else [[s[0]] + rest[0]] + rest[1..]
  }

  /** `parts.join(sep)` for a one-character separator. */
  function Join(parts: seq<string>, sep: char): string
  {
    if |parts| == 0 then ""
    else if |parts| == 1 then parts[0]
    else parts[0] + [sep] + Join(parts[1..], sep)
  }

  lemma {:induction false} SplitNoSep(s: string, sep: char)
    requires sep !in s
    ensures Split(s, sep) == [s]
  {
    if s != [] {
      assert sep !in s[1..];
      SplitNoSep(s[1..], sep);
      assert [s[0]] + s[1..] == s;
    }
  }

  /** Splitting at the first separator: the head is everything before it. */
  lemma {:induction false} SplitAt(s: string, sep: char, i: nat)
    requires i < |s| && s[i] == sep && sep !in s[..i]
    ensures Split(s, sep) == [s[..i]] + Split(s[i + 1..], sep)
  {
    if i > 0 {
      assert s[0] != sep by { assert s[0] == s[..i][0]; }
      assert s[1..][i - 1] == sep;
      assert s[1..][..i - 1] == s[1..i];
      SplitAt(s[1..], sep, i - 1);
      assert s[1..][i..] == s[i + 1..];
      assert [s[0]] + s[1..i] == s[..i];
    }
  }

  lemma {:induction false} JoinSplit(s: string, sep: char)
    ensures Join(Split(s, sep), sep) == s
  {
    if s != [] {
      var rest := Split(s[1..], sep);
      JoinSplit(s[1..], sep);
      if s[0] != sep && |rest| > 1 {
        assert Join(rest, sep) == rest[0] + [sep] + Join(rest[1..], sep);
      }
    }
  }

  lemma {:induction false} SplitJoin(parts: seq<string>, sep: char)
    requires |parts| >= 1
    requires forall k :: 0 <= k < |parts| ==> sep !in parts[k]
    ensures Split(Join(parts, sep), sep) == parts
  {
    if |parts| == 1 {
      SplitNoSep(parts[0], sep);
    } else {
      var s := Join(parts, sep);
      var p := parts[0];
      assert s == p + [sep] + Join(parts[1..], sep);
      assert s[..|p|] == p;
      assert s[|p| + 1..] == Join(parts[1..], sep);
      SplitAt(s, sep, |p|);
      SplitJoin(parts[1..], sep);
      assert parts == [p] + parts[1..];
    }
  }

  /** A joined string holds only the separator and the parts' characters. */
  lemma {:induction false} JoinAvoids(parts: seq<string>, sep: char, c: char)
    requires c != sep
    requires forall k :: 0 <= k < |parts| ==> c !in parts[k]
    ensures c !in Join(parts, sep)
  {
    if |parts| > 1 {
      JoinAvoids(parts[1..], sep, c);
    }
  }

  /** `parts.filter(Boolean)`: the non-empty parts, in order. */
  function DropEmpty(parts: seq<string>): (r: seq<string>)
    ensures forall t :: t in r <==> t in parts && t != ""
    ensures (forall k :: 0 <= k < |parts| ==> parts[k] == "") ==> r == []
  {
    if parts == [] then []
    else (if parts[0] == "" then [] else [parts[0]]) + DropEmpty(parts[1..])
  }

  lemma {:induction false} DropEmptyKeepsAll(parts: seq<string>)
    requires forall k :: 0 <= k < |parts| ==> parts[k] != ""
    ensures DropEmpty(parts) == parts
  {
    if parts != [] {
      DropEmptyKeepsAll(parts[1..]);
    }
  }

  /** The white space and line terminators that `String.prototype.trim` removes. */
  predicate IsJsSpace(c: char) {
    || c == ' ' || c == '\t' || c == '\n' || c == '\r'
    || c == '\U{000B}' || c == '\U{000C}' || c == '\U{00A0}' || c == '\U{1680}'
    || ('\U{2000}' <= c <= '\U{200A}')
    || c == '\U{2028}' || c == '\U{2029}' || c == '\U{202F}' || c == '\U{205F}'
    || c == '\U{3000}' || c == '\U{FEFF}'
  }

  function TrimStart(s: string): (r: string)
    ensures |r| <= |s| && r == s[|s| - |r|..]
    ensures forall k :: 0 <= k < |s| - |r| ==> IsJsSpace(s[k])
    ensures r == [] || !IsJsSpace(r[0])
  {
    if s != [] && IsJsSpace(s[0]) then
      var r := TrimStart(s[1..]);
      assert s[1..][|s| - 1 - |r|..] == s[|s| - |r|..];
      assert forall k :: 1 <= k < |s| - |r| ==> s[k] == s[1..][k - 1];
      r
    else s
  }

  function TrimEnd(s: string): (r: string)
    ensures |r| <= |s| && r == s[..|r|]
    ensures forall k :: |r| <= k < |s| ==> IsJsSpace(s[k])
    ensures r == [] || !IsJsSpace(r[|r| - 1])
  {
    if s != [] && IsJsSpace(s[|s| - 1]) then TrimEnd(s[..|s| - 1]) else s
  }

  /** `s.trim()`: the longest middle part with no white space at either end. */
  function Trim(s: string): (r: string)
    ensures r == [] || (!IsJsSpace(r[0]) && !IsJsSpace(r[|r| - 1]))
    ensures (s == [] || (!IsJsSpace(s[0]) && !IsJsSpace(s[|s| - 1]))) ==> r == s
    ensures forall c :: c in r ==> c in s
  {
    var t := TrimStart(s);
    var r := TrimEnd(t);
    assert forall c :: c in r ==> c in t;
    r
  }

  function LowerChar(c: char): char {
    if 'A' <= c <= 'Z' then (c as int + 32) as char else c
  }

  function UpperChar(c: char): char {
    if 'a' <= c <= 'z' then (c as int - 32) as char else c
  }

  /** `s.toLowerCase()` restricted to the ASCII letters. */
  function ToLower(s: string): (r: string)
    ensures |r| == |s|
    ensures forall i :: 0 <= i < |s| ==> r[i] == LowerChar(s[i])
  {
    seq(|s|, i requires 0 <= i < |s| => LowerChar(s[i]))
  }

  /** `s.toUpperCase()` restricted to the ASCII letters. */
  function ToUpper(s: string): (r: string)
    ensures |r| == |s|
    ensures forall i :: 0 <= i < |s| ==> r[i] == UpperChar(s[i])
  {
    seq(|s|, i requires 0 <= i < |s| => UpperChar(s[i]))
  }

  predicate IsDigit(c: char) {
    '0' <= c <= '9'
  }

  /** `String(n)` for a natural number. */
  function NatToString(n: nat): (r: string)
    ensures |r| >= 1
    ensures forall k :: 0 <= k < |r| ==> IsDigit(r[k])
    ensures n >= 10 ==> |r| >= 2
    ensures n >= 100 ==> |r| >= 3
    ensures n >= 1000 ==> |r| >= 4
  {
    var d := ['0' + (n % 10) as char];
    if n < 10 then d else NatToString(n / 10) + d
  }

  /** The number a string of decimal digits denotes. */
  function DigitsValue(s: string): nat
    requires forall k :: 0 <= k < |s| ==> IsDigit(s[k])
  {
    if s == [] then 0
    else
      assert IsDigit(s[|s| - 1]);
      DigitsValue(s[..|s| - 1]) * 10 + (s[|s| - 1] as int - '0' as int)
  }

  function Pow10(k: nat): (p: nat)
    ensures p >= 1
  {
    if k == 0 then 1 else 10 * Pow10(k - 1)
  }

  lemma Pow10Four()
    ensures Pow10(4) == 10000
  {
    assert Pow10(1) == 10;
    assert Pow10(2) == 100;
    assert Pow10(3) == 1000;
  }

  /** `k` decimal digits denote a number below `10^k`. */
  lemma {:induction false} DigitsValueBound(s: string)
    requires forall k :: 0 <= k < |s| ==> IsDigit(s[k])
    ensures DigitsValue(s) < Pow10(|s|)
  {
    if s != [] {
      DigitsValueBound(s[..|s| - 1]);
    }
  }

  /** The value of two digit strings written one after the other: the
      first scaled by a power of ten, plus the second. */
  lemma {:induction false} DigitsValueConcat(a: string, b: string)
    requires forall i :: 0 <= i < |a| ==> IsDigit(a[i])
    requires forall i :: 0 <= i < |b| ==> IsDigit(b[i])
    ensures forall i :: 0 <= i < |a + b| ==> IsDigit((a + b)[i])
    ensures DigitsValue(a + b) == DigitsValue(a) * Pow10(|b|) + DigitsValue(b)
  {
    assert forall i :: 0 <= i < |a + b| ==> IsDigit((a + b)[i]) by {
      forall i | 0 <= i < |a + b| ensures IsDigit((a + b)[i]) {
        if i < |a| { assert (a + b)[i] == a[i]; } else { assert (a + b)[i] == b[i - |a|]; }
      }
    }
    if b == [] {
      assert a + b == a;
    } else {
      var init := b[..|b| - 1];
      var d := b[|b| - 1] as int - '0' as int;
      DigitsValueConcat(a, init);
      assert (a + b)[..|a + b| - 1] == a + init;
      assert (a + b)[|a + b| - 1] == b[|b| - 1];
      assert DigitsValue(a + b) == DigitsValue(a + init) * 10 + d;
      assert DigitsValue(b) == DigitsValue(init) * 10 + d;
      Regroup(DigitsValue(a), Pow10(|init|), DigitsValue(init), d);
    }
  }

  lemma Regroup(a: int, p: int, b: int, d: int)
    ensures (a * p + b) * 10 + d == a * (10 * p) + (b * 10 + d)
  {
  }

  lemma {:induction false} Pow10Monotone(a: nat, b: nat)
    requires a <= b
    ensures Pow10(a) <= Pow10(b)
  {
    if a < b {
      Pow10Monotone(a, b - 1);
    }
  }

  /** The last (up to) four digits of a digit string denote its value
      modulo 10000. */
  lemma LastFourDigitsMod(s: string, n: nat)
    requires forall i :: 0 <= i < |s| ==> IsDigit(s[i])
    requires DigitsValue(s) == n
    ensures DigitsValue(if |s| <= 4 then s else s[|s| - 4..]) == n % 10000
  {
    Pow10Four();
    if |s| <= 4 {
      DigitsValueBound(s);
      Pow10Monotone(|s|, 4);
      ModOfSmall(n);
    } else {
      var h := s[..|s| - 4];
      var t := s[|s| - 4..];
      assert s == h + t;
      DigitsValueConcat(h, t);
      DigitsValueBound(t);
      ModOfSplit(n, DigitsValue(s[..|s| - 4]), DigitsValue(t));
    }
  }

  lemma ModOfSmall(n: nat)
    requires n < 10000
    ensures n % 10000 == n
  {
  }

  lemma ModOfSplit(n: nat, a: nat, b: nat)
    requires n == a * 10000 + b && b < 10000
    ensures n % 10000 == b
  {
  }

  /** `String(n)` denotes `n`: reading the digits back gives the number. */
  lemma {:induction false} NatToStringValue(n: nat)
    ensures DigitsValue(NatToString(n)) == n
  {
    var r := NatToString(n);
    if n >= 10 {
      NatToStringValue(n / 10);
      assert r[..|r| - 1] == NatToString(n / 10);
    }
  }
}

=== FILE: wrappers.dfy ===
/** Optional values and results with an error, used for the source's
    `undefined` fields and for the places where it throws. */
module Wrappers {

  datatype Option<+T> = None | Some(value: T) {

    /** Returns the value in Some, or `default` when None. */
    function GetOr(default: T): T {
      match this
      case Some(v) => v
      case None => default
    }
  }

  /** Either a value or the error that stopped the computation. */
  datatype Result<+R, +E> = Success(value: R) | Failure(error: E)
}
